=== FILE: README.md ===
# rlb load-balancing core in Dafny

This project models the core of `rlb`, a small TCP load balancer. It has three parts.

- **Backend pool and selection strategies.**
  - A `Backend` has an address, one `alive` flag, a `byte_traffic` counter and an optional health-check route.
  - A `BackendPool` holds an ordered list of backends and one strategy.
  - The strategies are round-robin, random, least-traffic and hashing. Each call probes at most one slot and names it only if that backend is alive.
  - `BackendPool::next_backend` asks the strategy again until it names a live slot. It fails with `NoBackendAlive` only when no backend is alive.
- **HTTP codec.** This is the request/status-line and header framing that the proxy and the health probe use.
  - `StatusCode::from_str` and the version parser and printer.
  - The method, version, route, status and transfer-encoding accessors of `HttpMessage`.
  - The `Display` printer and `parse_message`.
- **Server decision rules.** Every socket operation is replaced by its outcome.
  - The probe rule (connect, then an optional health request answered with `200`) and one probe tick over the pool.
  - The `Host` rewrite and the byte-count bookkeeping of one proxied request.
  - The outcome of one client session.
  - The back-off schedule of `accept`.

Every access to the pool goes through one mutex, so the atomics of the source are plain fields here. The model is sequential: datatypes and pure functions, and two methods with loops.

Modules, in dependency order:

- `Wrappers` holds `Option` and `Result`.
- `Text` holds the Rust string operations the parser relies on: `split`, `split_whitespace`, `splitn(2, ':')` and `trim_end_matches('\0')`.
- `Http` and `HttpProofs` hold the codec and its round-trip proofs.
- `Backends`, `Balancing` and `Pool` hold the pool and the strategies.
- `Server` holds the server rules.

Backends carry one liveness flag and the last byte count. The code has no connection counts, failure or success thresholds, three health states, healthy-subset round-robin, client hashing or acquire/release, so the model has none of them either.

Specific points where the code is followed:

- **Least traffic.** The code minimises `byte_traffic` over all backends, alive or not.
- **Byte counter.** The counter is overwritten, not accumulated.
- **Accept back-off.** The doc comment of `Server::accept` speaks of failing "on the 6th try". The code fails on the 8th consecutive failure, after waits of 1, 2, 4, 8, 16, 32 and 64 seconds. `Server.Accept` models the code.

Some consequences of the code are proved rather than assumed:

- A printed response head line does not parse when its status does not start with 'H', which includes every numeric status code. The printer writes `<status> <version>`, and the parser expects the version first.
- A printed request does not parse back unchanged. Every header value gains the space that followed its `:`, and the body becomes the CRLF the printer leaves before the separator.
- `next_backend` never returns when least-traffic's (or hashing's) one probed slot is dead while another backend is alive.
- A round-robin pool with a live backend is served within `len` strategy calls, by the first live slot at or after the cursor.

## Model

| member | source | states |
|---|---|---|
| Backends.NewBackend | src/backend.rs:37-44 | a new backend is offline with zero traffic and keeps the given address and health endpoint |
| Backends.SetOnline | src/backend.rs:46-48 | the backend becomes alive; address, traffic and endpoint are unchanged |
| Backends.SetOffline | src/backend.rs:50-52 | the backend becomes not alive; address, traffic and endpoint are unchanged |
| Backends.IncreaseByteTraffic | src/backend.rs:54-60 | afterwards `byte_traffic` reads exactly the stored count, whatever it was before; liveness, address and endpoint are unchanged |
| Backends.TrafficOverwrites | src/backend.rs:54-56 | recording two counts keeps only the second; the counter never holds their sum when the first is non-zero |
| Backends.OnlineOffline | src/backend.rs:46-52 | going online then offline is the same as going offline, and restores an offline backend exactly |
| Balancing.GetBalancer | src/balancing.rs:54-62 | round-robin, random and least-traffic give a strategy of that kind, round-robin with cursor 0; hashing is refused with `UnknownAlgorithm` |
| Balancing.RoundRobinNext | src/balancing.rs:92-100 | probes `cursor % len` and stores that index plus one, so the new cursor lies in `1..len`; `Some` exactly when the probed backend is alive, and then it names that index |
| Balancing.RandomNext | src/balancing.rs:117-124 | with a drawn index below `len`, returns `Some` iff that backend is alive, naming that index |
| Balancing.FirstMinTraffic | src/balancing.rs:144-149 | the index has the least traffic over all backends, alive or not, and every earlier index has strictly more (first minimum wins) |
| Balancing.LeastTrafficNext | src/balancing.rs:141-155 | `Some` iff the first least-loaded backend is alive; a returned index is alive, has minimal traffic and no earlier index ties it |
| Balancing.HashingNext | src/balancing.rs:174-190 | a response gives `None`; a request probes `hash(method) % len` and gives `Some` exactly when that backend is alive |
| Balancing.Step | src/balancing.rs:67-71 | the dispatched strategy call: any index returned is in range and alive, the strategy kind is kept, only round-robin changes state and its cursor ends in `1..len` |
| Balancing.RoundRobinConsecutive | src/balancing.rs:93-94 | consecutive round-robin calls probe consecutive slots modulo the length |
| Balancing.RoundRobinExample | tests/balancing.rs:7-28 | over four dead backends a fresh cursor gives `None`; with all alive the next calls give 1, 2, 3, 0 |
| Balancing.LeastTrafficExample | tests/balancing.rs:31-50 | with traffic 45, 40, 60, 70 the chosen slot is 1, returned only once that backend is alive |
| Balancing.HashingUsesMethodOnly | src/balancing.rs:177-182 | two messages with the same method (route included) give the same result over the same backends, whatever their headers, body or version |
| Balancing.HashingAllDead | tests/balancing.rs:53-69 | with every backend dead hashing gives `None` |
| Pool.NewPool | src/backend.rs:74-79 | a new pool is empty and holds the given strategy |
| Pool.FromBackendsList | src/backend.rs:85-93 | the pool holds the given backends in the given order |
| Pool.Push | src/backend.rs:95-97 | appends at the end: length grows by one, the new slot is the backend, earlier slots are untouched |
| Pool.SetAt | src/backend.rs:136-140 | writing slot `i` changes that slot only and keeps the length and strategy |
| Pool.LenCounts | src/backend.rs:81-83 | `len` is 0 for a new pool, grows by one per push, and equals the length of the list a pool is built from |
| Pool.IndexReads | src/backend.rs:129-140 | indexing reads what was put in a slot: the pushed backend at the old length, the earlier contents below it, and what a write through `pool[i]` stored |
| Pool.HasBackendsAvailable | src/backend.rs:122-126 | true iff some backend is alive |
| Pool.Loop | src/backend.rs:103-120 | the selection loop: an `Ok` index is in range and alive; it ends with `Err(NoBackendAlive)` iff no backend is alive, and then the strategy is not consulted |
| Pool.NextBackend | src/backend.rs:103-120 | selection never changes the backends; `Err(NoBackendAlive)` iff none is alive, and then the pool is unchanged; an `Ok` index is alive |
| Pool.RoundRobinFinds | src/backend.rs:107-115 | from any cursor, round-robin reaches a live target within its cyclic distance, settles on a slot no farther than the target and leaves the cursor just past it |
| Pool.RoundRobinTerminates | src/backend.rs:103-120 | with round-robin and a live backend, `len` strategy calls suffice and the result is the first live slot at or after the cursor, wrapping around |
| Pool.LeastTrafficSpins | src/backend.rs:107-115 | with least-traffic, a dead least-loaded slot and some other live backend, the loop never finishes: every budget runs out |
| Pool.HashingSpins | src/backend.rs:107-115 | with hashing of a response, or of a request whose slot is dead, and some live backend, the loop never finishes |
| Pool.PoolLenExample | tests/backend.rs:13-31 | a new pool has length 0, one push makes it 1, a list of two gives 2 |
| Pool.NextBackendExample | tests/backend.rs:33-47 | a fresh round-robin pool of two dead backends fails with `NoBackendAlive`; once slot 1 is alive selection gives `Ok(1)` |
| Http.VersionFromStr | src/http.rs:32-41 | on text starting with a version string, returns the version whose text starts it, V10 exactly for "HTTP/1.0" |
| Http.VersionRoundTrip | src/http.rs:23-41 | parsing a printed version, followed by anything, gives the version back |
| Http.StatusCodeFromStr | src/http.rs:58-74 | `Ok` iff there are three characters, the first in '1'..'5' and the next two digits (anything below '0' wraps and is rejected); the code is `100a + 10b + c` in [100, 599]; every failure is `InvalidStatusCode` |
| Http.StatusCodeIgnoresTail | src/http.rs:58-74 | characters after the third do not affect the result |
| Http.StatusCodeRoundTrip | src/http.rs:58-73 | every code in [100, 599] printed as three digits parses back to itself |
| Http.MethodOf | src/http.rs:131-136 | the method of a request; `None` exactly for a response |
| Http.VersionOf | src/http.rs:139-144 | the version of the head line, for requests and responses alike |
| Http.TransferEncoding | src/http.rs:148-150 | the `Transfer-Encoding` value when that header is present, else `None` |
| Http.Route | src/http.rs:153-165 | the route of a GET, POST, PUT, DELETE or CONNECT request; `None` for HEAD and for responses |
| Http.StatusCodeOf | src/http.rs:168-176 | `None` for a request; for a response, `Some` exactly when its status text parses, with a code in [100, 599] |
| Http.NewMessage | src/http.rs:122-128 | an HTTP/1.1 request with the given method and headers, no body and no status code |
| Http.MethodText | src/http.rs:87-98 | a method prints as its verb, then one space and the route; HEAD prints as the verb alone |
| Http.HeaderText | src/http.rs:106-113 | a request head line is the method text, one space and the version text; a response head line is the status, one space and the version text, i.e. `<status> <version>` |
| Http.HeaderLines | src/http.rs:181-184 | one line per header in the given iteration order; line `i` is the `i`-th key, `": "` and that key's value |
| Http.RenderParts | src/http.rs:179-191 | the printed message is the head line and a CRLF, then the header lines each ended by a CRLF in iteration order, then the body (empty when absent), then the separator |
| Http.ParseHeadline | src/http.rs:211-236 | over the whitespace tokens `t` of the head line: a `Method` exactly when `t[0]` is GET, POST, PUT, DELETE, CONNECT or HEAD, with that verb and, except for HEAD, route `t[1]`; otherwise a `Status` carrying `t[1]`; the version is the one whose text starts the line when it starts with "HTTP", else the one starting `t[2]`; it requires exactly what the source needs to avoid panicking |
| Http.ParseHeaderLine | src/http.rs:243-244 | a header line splits at its first ':' into a key without ':' and the unstripped rest |
| Http.CollectPairs | src/http.rs:245 | the collected map has exactly the pairs' keys, and each key holds the value of the last pair with that key |
| Http.CollectHeaders | src/http.rs:239-245 | the header map of the lines: keys exactly the lines' keys, each holding the value of the last line with that key |
| Http.ParseMessageHead | src/http.rs:208-245 | the head is the text before the first separator, which it does not contain; the head line and headers are parsed from it |
| Http.ParseMessageBody | src/http.rs:210-247 | the body is always present; the second segment runs from the first separator to the end or to the leftmost separator after it, and the body is that segment with exactly its trailing NULs removed (so it holds no separator and does not end in NUL) |
| HttpProofs.CollectPrinted | src/http.rs:239-245 | collecting printed header lines gives every key back with a leading space before its value |
| HttpProofs.RenderShape | src/http.rs:179-191 | a bodyless message prints as its head line and header lines joined by CRLF, then the separator, then one more CRLF |
| HttpProofs.ParsePrintedHead | src/http.rs:208-253 | parsing a printed request head plus the separator and any remainder restores the head line, gives each value with its leading space, and takes the body from the remainder's first segment with NULs trimmed |
| HttpProofs.ParseRender | src/http.rs:179-253 | parse after print of a bodyless request restores head line and keys; values gain a leading space and the body becomes CRLF |
| HttpProofs.ParseStatusLine | src/http.rs:208-245 | a response head `<version> <status> <reason>`, with any reason free of CR, followed by any header lines, the separator and anything else, parses without panicking to `Status(version, status)` with the headers those lines give |
| HttpProofs.PrintedStatusUnparsable | src/http.rs:106-113 | for a non-empty, whitespace-free status not starting with 'H' (every numeric status code), a printed status head line `<status> <version>` has exactly the two tokens status and version and is outside what `parse_message` accepts without panicking |
| HttpProofs.RenderExample | tests/http.rs:17-31 | a GET `/hello` with one Host header prints as `GET /hello HTTP/1.1\r\nHost: localhost\r\n\r\n\r\n` |
| HttpProofs.ParseExampleMessage | tests/http.rs:4-13 | the test request parses to a GET `/hello`, HTTP/1.1, with the Host value `" localhost"` |
| HttpProofs.ParseExample | tests/http.rs:4-13 | the test request parses without panicking; method, version, Host key and route are as the test expects |
| Text.Split | src/http.rs:210 | `split` pieces glue back to the input with the pattern between them; the first piece is cut at the leftmost occurrence (none starts inside it); there is one piece exactly when the pattern does not occur |
| Text.SplitRest | src/http.rs:210 | the pieces after the first are the split of the text after the first occurrence, so every cut is at the leftmost occurrence left |
| Text.SplitPieces | src/http.rs:210 | no piece of a split contains the pattern |
| Text.SplitParts | src/http.rs:210 | the first piece is followed by the pattern; the second starts right after it, holds no occurrence and ends at the end or at the leftmost next occurrence (none starts inside it) |
| Text.SplitTrimmed | src/http.rs:247 | the second piece runs to the end or to the leftmost next occurrence, and trimming keeps a prefix of it after which only NULs follow; the result holds no occurrence and does not end in NUL |
| Text.Words | src/http.rs:211 | `split_whitespace` tokens are non-empty and whitespace-free; text without whitespace is its own single token (or none when empty) |
| Text.WordsAppend | src/http.rs:211 | tokens do not merge across a boundary where whitespace starts the second half |
| Text.WordsBreak | src/http.rs:211 | any whitespace character splits the text: the tokens are those of the text before it followed by those of the text after it; with the single-token case of `Text.Words` this fixes the tokens of every text as its maximal non-whitespace runs, in order |
| Text.SplitOnce | src/http.rs:243-244 | `splitn(2, ':')` gives the text before the first ':' and the untouched rest |
| Text.TrimEndNuls | src/http.rs:247 | the result is a prefix of the input, only NULs were removed, and it does not end with a NUL |
| Text.TrimAllNuls | src/http.rs:247 | text made only of NULs trims to nothing |
| Server.HealthRequest | src/server.rs:139-145 | the health request is an HTTP/1.1 GET of the endpoint whose only header is `Host` set to the backend address |
| Server.ProbeRule | src/server.rs:134-159 | a failed connect marks offline; a connect without an endpoint marks online; with an endpoint the backend is online iff the reply's status code is 200; a failed exchange aborts; nothing else changes |
| Server.HealthyStatusLines | src/server.rs:151 | a reply whose status reads `200` is healthy and one reading `503` is not |
| Server.ProbeTick | src/server.rs:129-161 | backends are probed once each in pool order; each visited slot follows the probe rule, the first abort stops the tick, later slots are untouched |
| Server.ProbeTickLiveness | src/server.rs:134-159 | after its probe a backend is alive iff the connect succeeded and, with an endpoint, the reply was healthy; address and traffic keep |
| Server.ForwardedRequest | src/server.rs:209-211 | the forwarded request has `Host` set to the backend address, the same keys, head line and body, and every other header unchanged |
| Server.ForwardTwice | src/server.rs:211 | rewriting `Host` twice is rewriting it once to the last address |
| Server.Padded | src/server.rs:180-182 | the buffer is the bytes read followed by NULs up to 2048 |
| Server.ParsePaddedRequest | src/server.rs:180-209 | a printed request head read into the zero-filled buffer parses back with an empty body, and can be forwarded when it has a `Host` |
| Server.HandleRequest | src/server.rs:204-230 | rejected (the panicking `unwrap`s) exactly when the buffer does not parse or has no `Host`, and then the backend is untouched; otherwise the request written is the parsed one with `Host` set to the backend address; connect or write failures leave the backend as it was; after a failed read the counter holds the request size; otherwise it holds the response size; the reply is returned exactly when the exchange completed |
| Server.TrafficIsLastResponse | src/server.rs:215-227 | after a proxied request the backend does not depend on the request size or the earlier count |
| Server.Dispatch | src/server.rs:190 | the chosen backend handles the request; the pool is the old one with only that slot replaced, its liveness kept; a rejected request changes nothing |
| Server.AfterSelection | src/server.rs:183-190 | `NoBackend` exactly when selection reported no live backend; an unfinished or failed selection leaves the pool as it was; otherwise the named slot handles the request, only that slot is replaced, and the request is rejected exactly when it does not parse with a `Host` |
| Server.Serve | src/server.rs:179-190 | once the request is read: `NoBackend` iff no backend is alive, with the pool unchanged; the strategy state is the one `next_backend` leaves; a chosen slot is the index `next_backend` returned, was alive, and is the only slot replaced; the request is rejected exactly when the padded buffer does not parse with a `Host` |
| Server.HandleConnection | src/server.rs:178-193 | `ClientReadFailed` iff the client read failed; `NoBackend` iff the client was read and no backend is alive, and then the pool is unchanged; a chosen slot is the index `next_backend` returned, was alive, and is the only slot replaced; the session is `RequestRejected` exactly when the padded request does not parse with a `Host`; a served session holds the reply and the response size |
| Server.SessionKeepsLiveness | src/server.rs:178-193 | a session changes no backend's liveness and no slot but the chosen one |
| Server.RoundRobinSessionReachesBackend | src/server.rs:183-190 | with round-robin and a live backend, a session always reaches a backend |
| Server.Accept | src/server.rs:80-100 | fails iff the first eight attempts all fail; otherwise the first success is taken; the waits before attempt `k` are 1, 2, …, 2^(k-1) seconds |
| Server.BackoffBound | src/server.rs:89-100 | the wait exceeds 64 seconds exactly from the eighth attempt on |
| Server.FailedWaits | src/server.rs:80-100 | the waits before the final error are 1, 2, 4, 8, 16, 32 and 64 seconds |

## Left out

- Sockets and I/O are not modelled; their outcomes are inputs. This covers `connect`, `peek`/`read`/`write`/`write_all`, `shutdown` and the final write of the reply to the client. The reply's write failing is not distinguished from success.
- `tokio` task spawning, `delay_for` sleeps, `Arc<Mutex<…>>` and the atomics' memory orderings are not modelled. Pool access is serialised by one mutex, so a sequential model describes it.
- Pool.NextBackend: runs at most `fuel` strategy calls and reports `OutOfFuel` beyond that. The loop is modelled with a fuel bound. `Pool.RoundRobinTerminates` shows that `len` calls suffice for round-robin; `Pool.LeastTrafficSpins` and `Pool.HashingSpins` show that no budget suffices in the livelock cases.
- Balancing.Step: `thread_rng().gen_range(0, len)` is an input. The `k`-th call takes `env.roll(k) % len`, which can be any index below `len`.
- Balancing.HashingNext: `DefaultHasher` (SipHash) is an uninterpreted input function, so the test's expected index 3 (tests/balancing.rs:73-74) is not reproduced.
- Http.ParseMessage: `parse_message` panics on a malformed buffer (no separator, missing head tokens, no version text, a header line without ':'). The function requires `ParseDefined`, exactly the condition under which the source does not panic. At session level a malformed client request is the `Server.Session` outcome `RequestRejected`.
- Http.ParseHeadline: the indexing and `unwrap` panics of the head line are its precondition `HeadlineDefined`, for the same reason.
- Http.VersionFromStr: the `unwrap` panic on text that is not a version is its precondition `IsVersionText`, for the same reason.
- Server.HandleRequest: the chunked-transfer read loop (src/server.rs:221-226) is not modelled; `received` is the count after it. The response's `parse_message(...).unwrap()` panic is not modelled, and `from_utf8_lossy` is identity on text.
- Server.ProbeTick: the probe worker's endless loop and its 5-second sleep are not modelled; one tick is. The reply is taken already parsed, so the `unwrap` panic on a malformed health reply is not modelled.
- `Backend.addr.parse().expect(...)` panics on a malformed address. Addresses are opaque strings here, so this panic is not modelled.
- The `HashMap` iteration order in `Display for HttpMessage` is a parameter (`order`), any enumeration of the keys.
- HttpProofs.ParseRender: stated for bodyless requests other than HEAD whose route is one non-empty word, whose keys have no ':' and no CR, and whose values have no CR. Keys and values holding a CR that is not followed by LF are not covered by the proof, although the parser cuts only at CRLF and treats them alike. A key or value containing CRLF, a key containing ':', a non-empty body, a HEAD request and a response whose status does not start with 'H' do not print to text that parses back to the message (`HttpProofs.PrintedStatusUnparsable` shows the last).
- Http.StatusCodeFromStr: works on characters and the UTF-8 lead byte rather than on bytes; its doc comment argues the verdicts agree.
- Buffers are Unicode text, not bytes: `String::from_utf8_lossy` is not modelled.
- `src/lib.rs` (configuration loading), `src/main.rs` (start-up) and `src/bin/main.rs` (a toy backend) are not part of this model: they are wiring and I/O only.
- `HttpError::ParsingError` is never produced by the source and appears only as a constructor.

=== FILE: backend.dfy ===
/**
 One upstream server of the balancer: its address, a single liveness flag, the last byte
 count recorded for it and an optional health-check route. The source keeps the flag and
 the counter in atomics, but every access goes through the pool's one mutex, so plain
 fields describe it.
 */
module Backends {
  import opened Wrappers

  datatype Backend = Backend(addr: string, alive: bool, byteTraffic: nat, healthEndpoint: Option<string>)

  /** `Backend::new`: offline, no traffic recorded. */
  function NewBackend(addr: string, healthEndpoint: Option<string>): (b: Backend)
    ensures !b.alive && b.byteTraffic == 0
    ensures b.addr == addr && b.healthEndpoint == healthEndpoint
  {
    Backend(addr, false, 0, healthEndpoint)
  }

  /** `set_online`: alive, nothing else changes. */
  function SetOnline(b: Backend): (r: Backend)
    ensures r.alive
    ensures r.addr == b.addr && r.byteTraffic == b.byteTraffic && r.healthEndpoint == b.healthEndpoint
  {
    b.(alive := true)
  }

  /** `set_offline`: not alive, nothing else changes. */
  function SetOffline(b: Backend): (r: Backend)
    ensures !r.alive
    ensures r.addr == b.addr && r.byteTraffic == b.byteTraffic && r.healthEndpoint == b.healthEndpoint
  {
    b.(alive := false)
  }

  /** `increase_byte_traffic`: despite its name, it stores the count, replacing the old one. */
  function IncreaseByteTraffic(b: Backend, bytes: nat): (r: Backend)
    ensures ByteTraffic(r) == bytes
    ensures r.addr == b.addr && r.alive == b.alive && r.healthEndpoint == b.healthEndpoint
  {
    b.(byteTraffic := bytes)
  }

  /** `byte_traffic`. */
  function ByteTraffic(b: Backend): nat {
    b.byteTraffic
  }

  /** Recording twice keeps only the second count: the counter does not accumulate. */
  lemma TrafficOverwrites(b: Backend, first: nat, second: nat)
    ensures IncreaseByteTraffic(IncreaseByteTraffic(b, first), second) == IncreaseByteTraffic(b, second)
    ensures first > 0 ==> ByteTraffic(IncreaseByteTraffic(IncreaseByteTraffic(b, first), second)) != first + second
  {
  }

  /** Going online and then offline restores the backend exactly. */
  lemma OnlineOffline(b: Backend)
    ensures SetOffline(SetOnline(b)) == SetOffline(b)
    ensures !b.alive ==> SetOffline(SetOnline(b)) == b
  {
  }
}

=== FILE: balancing.dfy ===
/**
 The four selection strategies. Each call probes at most one slot of the backend list and
 names it only if that backend is alive; the pool's loop calls the strategy again on
 `None`. Only round-robin keeps state: a cursor, stored as the probed index plus one.
 */
module Balancing {
  import opened Wrappers
  import opened Backends
  import Http

  datatype BalancingError = UnknownAlgorithm

  /** The algorithm names the configuration may hold. */
  datatype BalancingAlgorithm = RoundRobin | Random | LeastTraffic | Hashing

  /** A strategy with its state. Hashing holds the request it hashes. */
  datatype Balancer =
    | RoundRobinBalancer(nextIndex: nat)
    | RandomBalancer
    | LeastTrafficBalancer
    | HashingBalancer(request: Http.HttpMessage)

  /** Inputs from outside the model: the values `thread_rng().gen_range` draws, by call
      number, and the `DefaultHasher` digest of a method. */
  datatype Env = Env(roll: nat -> nat, hash: Http.HttpMethod -> nat)

  function AlgorithmOf(b: Balancer): BalancingAlgorithm {
    match b
    case RoundRobinBalancer(_) => RoundRobin
    case RandomBalancer => Random
    case LeastTrafficBalancer => LeastTraffic
    case HashingBalancer(_) => Hashing
  }

  /** `get_balancer`: a fresh strategy for every algorithm except hashing, which needs a
      request and is refused. */
  function GetBalancer(algo: BalancingAlgorithm): (r: Result<Balancer, BalancingError>)
    ensures r.Err? <==> algo == Hashing
    ensures r.Err? ==> r.error == UnknownAlgorithm
    ensures r.Ok? ==> AlgorithmOf(r.value) == algo
    ensures r.Ok? && algo == RoundRobin ==> r.value == RoundRobinBalancer(0)
  {
    match algo
    case RoundRobin => Ok(RoundRobinBalancer(0))
    case Random => Ok(RandomBalancer)
    case LeastTraffic => Ok(LeastTrafficBalancer)
    case _ => Err(UnknownAlgorithm)
  }

  /** Round-robin: probe `cursor % len`, store that index plus one. */
  function RoundRobinNext(cursor: nat, backends: seq<Backend>): (r: (nat, Option<nat>))
    requires |backends| > 0
    ensures 1 <= r.0 <= |backends|
    ensures r.0 == cursor % |backends| + 1
    ensures r.1.Some? <==> backends[cursor % |backends|].alive
    ensures r.1.Some? ==> r.1.value == cursor % |backends|
  {
    var index := cursor % |backends|;
    (index + 1, if backends[index].alive then Some(index) else None)
  }

  /** Random: probe the drawn index. */
  function RandomNext(backends: seq<Backend>, index: nat): (r: Option<nat>)
    requires index < |backends|
    ensures r.Some? <==> backends[index].alive
    ensures r.Some? ==> r.value == index
  {
    if backends[index].alive then Some(index) else None
  }

  /** The first index whose byte count is minimal over all backends, alive or not
      (`Iterator::min_by_key` keeps the earliest of equal keys). */
  function FirstMinTraffic(backends: seq<Backend>): (i: nat)
    requires |backends| > 0
    ensures i < |backends|
    ensures forall j :: 0 <= j < |backends| ==> backends[i].byteTraffic <= backends[j].byteTraffic
    ensures forall j :: 0 <= j < i ==> backends[j].byteTraffic > backends[i].byteTraffic
  {
    if |backends| == 1 then 0
    else
      var last := |backends| - 1;
      var k := FirstMinTraffic(backends[..last]);
      if backends[last].byteTraffic < backends[k].byteTraffic then last else k
  }

  /** Least-traffic: probe the first least-loaded slot. */
  function LeastTrafficNext(backends: seq<Backend>): (r: Option<nat>)
    requires |backends| > 0
    ensures r.Some? <==> backends[FirstMinTraffic(backends)].alive
    ensures r.Some? ==> r.value < |backends| && backends[r.value].alive
    ensures r.Some? ==> forall j :: 0 <= j < |backends| ==> backends[r.value].byteTraffic <= backends[j].byteTraffic
    ensures r.Some? ==> forall j :: 0 <= j < r.value ==> backends[j].byteTraffic > backends[r.value].byteTraffic
  {
    var index := FirstMinTraffic(backends);
    if backends[index].alive then Some(index) else None
  }

  /** Hashing: nothing for a response; otherwise probe the method's hash modulo the length. */
  function HashingNext(request: Http.HttpMessage, backends: seq<Backend>, hash: Http.HttpMethod -> nat): (r: Option<nat>)
    requires |backends| > 0 || request.header.Status?
    ensures request.header.Status? ==> r.None?
    ensures request.header.Method? ==>
      (r.Some? <==> backends[hash(request.header.verb) % |backends|].alive)
    ensures r.Some? ==> r.value == hash(request.header.verb) % |backends|
  {
    match Http.MethodOf(request)
    case Some(m) =>
      var index := hash(m) % |backends|;
      if backends[index].alive then Some(index) else None
    case None => None
  }

  /** The strategy call cannot panic: the list is non-empty, or the strategy is hashing a
      response and returns before indexing. */
  predicate StepDefined(b: Balancer, backends: seq<Backend>) {
    |backends| > 0 || (b.HashingBalancer? && b.request.header.Status?)
  }

  /** `LoadBalancing::next_backend`, dispatched on the strategy; `call` numbers the draw. */
  function Step(b: Balancer, backends: seq<Backend>, env: Env, call: nat): (r: (Balancer, Option<nat>))
    requires StepDefined(b, backends)
    ensures r.1.Some? ==> r.1.value < |backends| && backends[r.1.value].alive
    ensures AlgorithmOf(r.0) == AlgorithmOf(b)
    ensures !b.RoundRobinBalancer? ==> r.0 == b
    ensures b.RoundRobinBalancer? ==> 1 <= r.0.nextIndex <= |backends|
  {
    match b
    case RoundRobinBalancer(cursor) =>
      var (next, r) := RoundRobinNext(cursor, backends);
      (RoundRobinBalancer(next), r)
    case RandomBalancer => (b, RandomNext(backends, env.roll(call) % |backends|))
    case LeastTrafficBalancer => (b, LeastTrafficNext(backends))
    case HashingBalancer(request) => (b, HashingNext(request, backends, env.hash))
  }

  /** Consecutive round-robin calls probe consecutive slots modulo the length. */
  lemma RoundRobinConsecutive(cursor: nat, backends: seq<Backend>)
    requires |backends| > 0
    ensures RoundRobinNext(cursor, backends).0 % |backends| == (cursor % |backends| + 1) % |backends|
  {
  }

  /** rlb's round-robin test: over four dead backends a fresh cursor gives nothing;
      once all are alive the next four calls give 1, 2, 3 and 0. */
  lemma RoundRobinExample(dead: seq<Backend>, live: seq<Backend>)
    requires |dead| == 4 && forall i :: 0 <= i < 4 ==> !dead[i].alive
    requires |live| == 4 && forall i :: 0 <= i < 4 ==> live[i].alive
    ensures RoundRobinNext(0, dead) == (1, None)
    ensures RoundRobinNext(1, live) == (2, Some(1))
    ensures RoundRobinNext(2, live) == (3, Some(2))
    ensures RoundRobinNext(3, live) == (4, Some(3))
    ensures RoundRobinNext(4, live) == (1, Some(0))
  {
  }

  /** rlb's least-traffic test: counts 45, 40, 60, 70 pick index 1, and only once
      that backend is alive. */
  lemma LeastTrafficExample(backends: seq<Backend>)
    requires |backends| == 4
    requires backends[0].byteTraffic == 45 && backends[1].byteTraffic == 40
    requires backends[2].byteTraffic == 60 && backends[3].byteTraffic == 70
    ensures FirstMinTraffic(backends) == 1
    ensures LeastTrafficNext(backends) == (if backends[1].alive then Some(1) else None)
  {
    var i := FirstMinTraffic(backends);
    assert backends[i].byteTraffic <= backends[1].byteTraffic;
  }

  /** Hashing looks at the method only: two requests with the same method (route included)
      land on the same slot whatever their headers, body or version. */
  lemma HashingUsesMethodOnly(r1: Http.HttpMessage, r2: Http.HttpMessage, backends: seq<Backend>, hash: Http.HttpMethod -> nat)
    requires |backends| > 0
    requires Http.MethodOf(r1) == Http.MethodOf(r2)
    ensures HashingNext(r1, backends, hash) == HashingNext(r2, backends, hash)
  {
  }

  /** rlb's hashing test, first half: with every backend dead there is no slot. */
  lemma HashingAllDead(request: Http.HttpMessage, backends: seq<Backend>, hash: Http.HttpMethod -> nat)
    requires |backends| > 0 && forall i :: 0 <= i < |backends| ==> !backends[i].alive
    ensures HashingNext(request, backends, hash) == None
  {
  }
}

=== FILE: http.dfy ===
/**
 The HTTP/1.x subset the balancer reads and writes: a head line (request line or status
 line), `key: value` header lines separated by CRLF, a blank-line separator and a body
 (RFC 7230 section 3). Buffers are text; the header map's iteration order, which Rust's
 `HashMap` leaves unspecified, is an explicit argument of the printer.
 */
module Http {
  import opened Wrappers
  import opened Text

  /** Line terminator inside the head. */
  const CRLF: string := "\r\n"
  /** Separator between head and body; the source names this constant `CRLF`. */
  const SEP: string := "\r\n\r\n"

  datatype HttpError = ParsingError | InvalidStatusCode

  datatype HttpVersion = V10 | V11

  /** `Display for HttpVersion`. */
  function VersionText(v: HttpVersion): string {
    match v
    case V10 => "HTTP/1.0"
    case V11 => "HTTP/1.1"
  }

  /** The texts `HttpVersion::from_str` accepts without panicking. */
  predicate IsVersionText(s: string) {
    StartsWith(s, "HTTP/1.0") || StartsWith(s, "HTTP/1.1")
  }

  /** `HttpVersion::from_str`: the version whose text starts `s`. */
  function VersionFromStr(s: string): (v: HttpVersion)
    requires IsVersionText(s)
    ensures StartsWith(s, VersionText(v))
    ensures v == V10 <==> StartsWith(s, "HTTP/1.0")
  {
    if StartsWith(s, "HTTP/1.0") then V10 else V11
  }

  /** Parsing a printed version gives it back, whatever follows it. */
  lemma VersionRoundTrip(v: HttpVersion, rest: string)
    ensures IsVersionText(VersionText(v) + rest)
    ensures VersionFromStr(VersionText(v) + rest) == v
  {
    var s := VersionText(v) + rest;
    assert s[..8] == VersionText(v);
  }

  datatype StatusCode = StatusCode(code: nat)

  /** The first byte of the UTF-8 encoding of `c`. */
  function Utf8LeadByte(c: char): (b: nat)
    ensures b < 256
    ensures (c as int) < 0x80 ==> b == c as int
    ensures (c as int) >= 0x80 ==> b >= 0xC0
  {
    var n := c as int;
    if n < 0x80 then n
    else if n < 0x800 then 0xC0 + n / 0x40
    else if n < 0x1_0000 then 0xE0 + n / 0x1000
    else 0xF0 + n / 0x4_0000
  }

  /** `u8::wrapping_sub(b'0')`. */
  function WrappingSubZero(b: nat): (r: nat)
    requires b < 256
    ensures r < 256
  {
    (b + 256 - 48) % 256
  }

  predicate IsDigit(c: char) {
    '0' <= c <= '9'
  }

  function DigitValue(c: char): int {
    c as int - '0' as int
  }

  /**
   `StatusCode::from_str`: a status code from the first three bytes of `s`. The source
   checks the UTF-8 byte length; this model checks the character count. The verdicts agree:
   a text of fewer than three characters but three or more bytes has a non-ASCII character
   among its first two, whose lead byte (0xC0 or above) the digit test rejects, and a
   non-ASCII character among the first three likewise fails the digit test through its lead
   byte.
   */
  /** The byte `wrapping_sub(b'0')` makes of a character's first UTF-8 byte: at most 9
      exactly for a decimal digit, and then its value. */
  function DigitByte(c: char): (d: nat)
    ensures d < 256
    ensures d <= 9 <==> IsDigit(c)
    ensures d <= 9 ==> d == DigitValue(c)
    ensures (1 <= d <= 5) <==> '1' <= c <= '5'
  {
    WrappingSubZero(Utf8LeadByte(c))
  }

  function StatusCodeFromStr(s: string): (r: Result<StatusCode, HttpError>)
    ensures r.Ok? <==> |s| >= 3 && '1' <= s[0] <= '5' && IsDigit(s[1]) && IsDigit(s[2])
    ensures r.Err? ==> r.error == InvalidStatusCode
    ensures r.Ok? ==> r.value.code == 100 * DigitValue(s[0]) + 10 * DigitValue(s[1]) + DigitValue(s[2])
    ensures r.Ok? ==> 100 <= r.value.code <= 599
  {
    if |s| < 3 then Err(InvalidStatusCode)
    else
      var a := DigitByte(s[0]);
      var b := DigitByte(s[1]);
      var c := DigitByte(s[2]);
      if a == 0 || a > 5 || b > 9 || c > 9 then Err(InvalidStatusCode)
      else Ok(StatusCode(a * 100 + b * 10 + c))
  }

  /** Only the first three characters matter. */
  lemma StatusCodeIgnoresTail(s: string, tail: string)
    requires |s| == 3
    ensures StatusCodeFromStr(s + tail) == StatusCodeFromStr(s)
  {
  }

  /** The three decimal digits of a code in [100, 599]. */
  function ThreeDigits(n: nat): string
    requires 100 <= n <= 599
  {
    [('0' as int + n / 100) as char, ('0' as int + n / 10 % 10) as char, ('0' as int + n % 10) as char]
  }

  /** Every valid code printed as three digits parses back to itself. */
  lemma StatusCodeRoundTrip(n: nat)
    requires 100 <= n <= 599
    ensures StatusCodeFromStr(ThreeDigits(n)) == Ok(StatusCode(n))
  {
    var s := ThreeDigits(n);
    assert DigitValue(s[0]) == n / 100;
    assert DigitValue(s[1]) == n / 10 % 10;
    assert DigitValue(s[2]) == n % 10;
    assert 100 * (n / 100) + 10 * (n / 10 % 10) + n % 10 == n;
  }

  datatype HttpMethod =
    | Get(route: string)
    | Post(route: string)
    | Put(route: string)
    | Delete(route: string)
    | Connect(route: string)
    | Head

  /** `Display for HttpMethod`: the verb, then the route after one space (HEAD has none). */
  function MethodText(m: HttpMethod): (r: string)
    ensures m.Head? ==> r == Verb(m)
    ensures !m.Head? ==> r == Verb(m) + " " + m.route
  {
    match m
    case Get(r) => "GET " + r
    case Post(r) => "POST " + r
    case Head => "HEAD"
    case Put(r) => "PUT " + r
    case Delete(r) => "DELETE " + r
    case Connect(r) => "CONNECT " + r
  }

  /** The request-line verb of a method. */
  function Verb(m: HttpMethod): string {
    match m
    case Get(_) => "GET"
    case Post(_) => "POST"
    case Put(_) => "PUT"
    case Delete(_) => "DELETE"
    case Connect(_) => "CONNECT"
    case Head => "HEAD"
  }

  /** The head line: a request's method, or a response's status text. */
  datatype HttpHeader =
    | Method(version: HttpVersion, verb: HttpMethod)
    | Status(version: HttpVersion, status: string)

  /** `Display for HttpHeader`: method or status text first, then the version. A response
      therefore prints as `<status> <version>`, the reverse of the `<version> <status>`
      order that `parse_message` reads. */
  function HeaderText(h: HttpHeader): (r: string)
    ensures h.Method? ==> StartsWith(r, Verb(h.verb))
    ensures h.Status? ==> StartsWith(r, h.status + " ")
    ensures h.Method? ==>
      StartsWith(r, MethodText(h.verb) + " ") && |r| == |MethodText(h.verb)| + 1 + |VersionText(h.version)|
    ensures h.Status? ==> |r| == |h.status| + 1 + |VersionText(h.version)|
    ensures |VersionText(h.version)| < |r| && r[|r| - |VersionText(h.version)|..] == VersionText(h.version)
  {
    match h
    case Method(v, m) => MethodText(m) + " " + VersionText(v)
    case Status(v, s) => s + " " + VersionText(v)
  }

  datatype HttpMessage = HttpMessage(header: HttpHeader, headers: map<string, string>, body: Option<string>)

  /** `HttpMessage::method`: the method of a request, `None` for a response. */
  function MethodOf(msg: HttpMessage): (r: Option<HttpMethod>)
    ensures r.Some? <==> msg.header.Method?
    ensures r.Some? ==> r.value == msg.header.verb
  {
    match msg.header
    case Method(_, m) => Some(m)
    case Status(_, _) => None
  }

  /** `HttpMessage::http_version`: present for requests and responses alike. */
  function VersionOf(msg: HttpMessage): (r: Option<HttpVersion>)
    ensures r == Some(msg.header.version)
  {
    match msg.header
    case Method(v, _) => Some(v)
    case Status(v, _) => Some(v)
  }

  /** `HttpMessage::transfer_encoding`. */
  function TransferEncoding(msg: HttpMessage): (r: Option<string>)
    ensures r.Some? <==> "Transfer-Encoding" in msg.headers
    ensures r.Some? ==> r.value == msg.headers["Transfer-Encoding"]
  {
    if "Transfer-Encoding" in msg.headers then Some(msg.headers["Transfer-Encoding"]) else None
  }

  /** `HttpMessage::route`: the route of a request whose method carries one. */
  function Route(msg: HttpMessage): (r: Option<string>)
    ensures r.Some? <==> msg.header.Method? && !msg.header.verb.Head?
    ensures r.Some? ==> r.value == msg.header.verb.route
  {
    match MethodOf(msg)
    case Some(m) =>
      (match m
       case Get(route) => Some(route)
       case Post(route) => Some(route)
       case Put(route) => Some(route)
       case Connect(route) => Some(route)
       case Delete(route) => Some(route)
       case Head => None)
    case None => None
  }

  /** `HttpMessage::status_code`: a response's status text read as a status code. */
  function StatusCodeOf(msg: HttpMessage): (r: Option<StatusCode>)
    ensures msg.header.Method? ==> r.None?
    ensures msg.header.Status? ==> (r.Some? <==> StatusCodeFromStr(msg.header.status).Ok?)
    ensures r.Some? ==> 100 <= r.value.code <= 599 && r == Some(StatusCodeFromStr(msg.header.status).value)
  {
    match msg.header
    case Status(_, s) =>
      (match StatusCodeFromStr(s)
       case Ok(c) => Some(c)
       case Err(_) => None)
    case Method(_, _) => None
  }

  /** `HttpMessage::new`: an HTTP/1.1 request without a body. */
  function NewMessage(m: HttpMethod, headers: map<string, string>): (r: HttpMessage)
    ensures MethodOf(r) == Some(m)
    ensures VersionOf(r) == Some(V11)
    ensures StatusCodeOf(r) == None
    ensures r.headers == headers && r.body == None
  {
    HttpMessage(Method(V11, m), headers, None)
  }

  /** `order` lists every key of `headers` exactly once: a possible `HashMap` iteration order. */
  predicate Enumerates(order: seq<string>, headers: map<string, string>) {
    && (forall i :: 0 <= i < |order| ==> order[i] in headers)
    && (forall k :: k in headers ==> k in order)
    && (forall i, j :: 0 <= i < j < |order| ==> order[i] != order[j])
  }

  /** The header lines `k: v`, in the given order, without terminators. */
  function HeaderLines(headers: map<string, string>, order: seq<string>): (r: seq<string>)
    requires forall i :: 0 <= i < |order| ==> order[i] in headers
    ensures |r| == |order|
    ensures forall i :: 0 <= i < |order| ==> r[i] == order[i] + ": " + headers[order[i]]
  {
    if |order| == 0 then []
    else
      var rest := HeaderLines(headers, order[1..]);
      assert forall i :: 1 <= i < |order| ==> order[1..][i - 1] == order[i];
      [order[0] + ": " + headers[order[0]]] + rest
  }

  /** Each line followed by a CRLF. */
  function Terminated(lines: seq<string>): string {
    if |lines| == 0 then "" else lines[0] + CRLF + Terminated(lines[1..])
  }

  /** `Display for HttpMessage`: head line, CRLF, terminated header lines, body, separator. */
  function Render(msg: HttpMessage, order: seq<string>): string
    requires Enumerates(order, msg.headers)
  {
    var body := match msg.body case Some(b) => b case None => "";
    HeaderText(msg.header) + CRLF + Terminated(HeaderLines(msg.headers, order)) + body + SEP
  }

  /** The printed layout: the head line and a CRLF first, the separator last, the body
      just before it and the terminated header lines, in the given order, in between. */
  lemma RenderParts(msg: HttpMessage, order: seq<string>)
    requires Enumerates(order, msg.headers)
    ensures var r := Render(msg, order);
      var head := HeaderText(msg.header) + CRLF;
      var body := if msg.body.Some? then msg.body.value else "";
      && |head| + |body| + |SEP| <= |r|
      && r[..|head|] == head
      && r[|head|..|r| - |body| - |SEP|] == Terminated(HeaderLines(msg.headers, order))
      && r[|r| - |body| - |SEP|..|r| - |SEP|] == body
      && r[|r| - |SEP|..] == SEP
  {
    var body := if msg.body.Some? then msg.body.value else "";
    FourParts(HeaderText(msg.header) + CRLF, Terminated(HeaderLines(msg.headers, order)), body, SEP);
  }

  /** Where each of four concatenated texts sits in the whole. */
  lemma FourParts(a: string, b: string, c: string, d: string)
    ensures var r := a + b + c + d;
      && r[..|a|] == a
      && r[|a|..|r| - |c| - |d|] == b
      && r[|r| - |c| - |d|..|r| - |d|] == c
      && r[|r| - |d|..] == d
  {
  }

  /** Verbs whose request line carries a route. */
  const RoutedVerbs: set<string> := {"GET", "POST", "PUT", "DELETE", "CONNECT"}

  /** The head line parses without panicking: the version can be read, the tokens indexed
      exist, and a routed verb has its route. */
  predicate HeadlineDefined(head: string) {
    var t := Words(head);
    if StartsWith(head, "HTTP") then IsVersionText(head) && |t| >= 2 && t[0] !in RoutedVerbs
    else |t| >= 3 && IsVersionText(t[2])
  }

  /** The head line: a response when the head starts with "HTTP", else a request whose
      version is the third token and whose route is the second. Unknown verbs give a
      `Status` carrying the second token. */
  function ParseHeadline(head: string): (h: HttpHeader)
    requires HeadlineDefined(head)
    ensures h.Method? <==> Words(head)[0] in RoutedVerbs || Words(head)[0] == "HEAD"
    ensures h.Method? ==> Verb(h.verb) == Words(head)[0]
    ensures h.Method? && !h.verb.Head? ==> h.verb.route == Words(head)[1]
    ensures h.Status? ==> h.status == Words(head)[1]
    ensures StartsWith(head, "HTTP") ==> StartsWith(head, VersionText(h.version))
    ensures !StartsWith(head, "HTTP") ==> StartsWith(Words(head)[2], VersionText(h.version))
  {
    var t := Words(head);
    var isResponse := StartsWith(head, "HTTP");
    var version := if isResponse then VersionFromStr(head) else VersionFromStr(t[2]);
    var route: Option<string> := if isResponse then None else Some(t[1]);
    if t[0] == "GET" then Method(version, Get(route.value))
    else if t[0] == "POST" then Method(version, Post(route.value))
    else if t[0] == "PUT" then Method(version, Put(route.value))
    else if t[0] == "DELETE" then Method(version, Delete(route.value))
    else if t[0] == "CONNECT" then Method(version, Connect(route.value))
    else if t[0] == "HEAD" then Method(version, Head)
    else Status(version, t[1])
  }

  /** The head's lines after the first. */
  function HeaderLinesOf(head: string): seq<string> {
    Split(head, CRLF)[1..]
  }

  /** Each header line has a ':' (the source unwraps the second half of `splitn`). */
  predicate HeaderLinesDefined(lines: seq<string>) {
    forall i :: 0 <= i < |lines| ==> ':' in lines[i]
  }

  /** One header line: the text before the first ':' and the unstripped remainder. */
  function ParseHeaderLine(line: string): (r: (string, string))
    requires ':' in line
    ensures r.0 + ":" + r.1 == line && ':' !in r.0
  {
    SplitOnce(line, ':')
  }

  /** Each header line split into key and value, in order. */
  function ParsedLines(lines: seq<string>): (ps: seq<(string, string)>)
    requires HeaderLinesDefined(lines)
    ensures |ps| == |lines|
    ensures forall i :: 0 <= i < |lines| ==> ps[i] == ParseHeaderLine(lines[i])
  {
    seq(|lines|, i requires 0 <= i < |lines| => ParseHeaderLine(lines[i]))
  }

  /** Header lines collected into a map; a later line overrides an earlier one with the same key. */
  function CollectHeaders(lines: seq<string>): (r: map<string, string>)
    requires HeaderLinesDefined(lines)
    ensures Collected(ParsedLines(lines), r)
  {
    CollectPairs(ParsedLines(lines))
  }

  /** `Iterator::collect` into a `HashMap`: pairs inserted in order. */
  function CollectPairs(ps: seq<(string, string)>): (r: map<string, string>)
    ensures Collected(ps, r)
  {
    if |ps| == 0 then map[]
    else
      var rest := CollectPairs(ps[1..]);
      CollectStep(ps, rest);
      map[ps[0].0 := ps[0].1] + rest
  }

  /** No later pair of `ps` has the same key as pair `i`. */
  predicate LastWithKey(ps: seq<(string, string)>, i: nat)
    requires i < |ps|
  {
    forall j :: i < j < |ps| ==> ps[j].0 != ps[i].0
  }

  /** `r` is what collecting `ps` into a map gives: the keys are exactly the pairs' keys,
      and each key holds the value of the last pair that has it. */
  predicate Collected(ps: seq<(string, string)>, r: map<string, string>) {
    && (forall i :: 0 <= i < |ps| ==> ps[i].0 in r)
    && (forall k :: k in r ==> exists i :: 0 <= i < |ps| && ps[i].0 == k)
    && (forall i :: 0 <= i < |ps| && LastWithKey(ps, i) ==> r[ps[i].0] == ps[i].1)
  }

  /** Collecting one more pair in front: its entry is overridden by any later one. */
  lemma CollectStep(ps: seq<(string, string)>, rest: map<string, string>)
    requires |ps| > 0 && Collected(ps[1..], rest)
    ensures Collected(ps, map[ps[0].0 := ps[0].1] + rest)
  {
    var tail := ps[1..];
    var r := map[ps[0].0 := ps[0].1] + rest;
    assert forall i :: 1 <= i < |ps| ==> ps[i] == tail[i - 1];
    forall k | k in r
      ensures exists i :: 0 <= i < |ps| && ps[i].0 == k
    {
      if k != ps[0].0 {
        var i :| 0 <= i < |tail| && tail[i].0 == k;
        assert ps[i + 1].0 == k;
      }
    }
    forall i | 0 <= i < |ps| && LastWithKey(ps, i)
      ensures r[ps[i].0] == ps[i].1
    {
      if i > 0 {
        assert LastWithKey(tail, i - 1);
      }
    }
  }

  /** `parse_message` reaches its `Ok` without panicking. */
  predicate ParseDefined(buffer: string) {
    var content := Split(buffer, SEP);
    && |content| >= 2
    && HeadlineDefined(content[0])
    && HeaderLinesDefined(HeaderLinesOf(content[0]))
  }

  /** `parse_message`: head before the first separator, body the next segment with trailing
      NULs trimmed. The source only ever returns `Ok`; its panics are this function's
      precondition. */
  function ParseMessage(buffer: string): HttpMessage
    requires ParseDefined(buffer)
  {
    var content := Split(buffer, SEP);
    HttpMessage(ParseHeadline(content[0]), CollectHeaders(HeaderLinesOf(content[0])), Some(TrimEndNuls(content[1])))
  }

  /** Where `parse_message` finds the head: the text before the first separator. */
  lemma ParseMessageHead(buffer: string)
    requires ParseDefined(buffer)
    ensures var head := Split(buffer, SEP)[0];
      && StartsWith(buffer, head + SEP)
      && (forall j :: 0 <= j < |head| ==> !OccursAt(buffer, SEP, j))
      && ParseMessage(buffer).header == ParseHeadline(head)
      && ParseMessage(buffer).headers == CollectHeaders(HeaderLinesOf(head))
  {
    SplitParts(buffer, SEP);
  }

  /** Where `parse_message` finds the body: after the first separator, up to the end or the
      next separator, with trailing NULs trimmed. Exactly: the second segment runs to the
      end or to the leftmost separator after the first, and the body is that segment with
      only its trailing NULs removed. */
  lemma ParseMessageBody(buffer: string)
    requires ParseDefined(buffer)
    ensures var after := buffer[|Split(buffer, SEP)[0]| + |SEP|..];
      var body := ParseMessage(buffer).body;
      && body.Some?
      && body.value <= after
      && (forall j :: !OccursAt(body.value, SEP, j))
      && (|body.value| == 0 || body.value[|body.value| - 1] != '\0')
      && (|body.value| == |after| || after[|body.value|] == '\0' || OccursAt(after, SEP, |body.value|))
    ensures var after := buffer[|Split(buffer, SEP)[0]| + |SEP|..];
      var second := Split(buffer, SEP)[1];
      var body := ParseMessage(buffer).body;
      && second <= after
      && (forall j :: 0 <= j < |second| ==> !OccursAt(after, SEP, j))
      && (|second| == |after| || OccursAt(after, SEP, |second|))
      && body.Some? && body.value <= second
      && (forall k :: |body.value| <= k < |second| ==> second[k] == '\0')
  {
    var content := Split(buffer, SEP);
    assert ParseMessage(buffer).body == Some(TrimEndNuls(content[1]));
    SplitTrimmed(buffer, SEP);
  }
}

=== FILE: http_proofs.dfy ===
/**
 What printing and parsing an HTTP message do to each other. The printer's output is
 not read back unchanged: every header value gains the space that followed its ':' and
 the body becomes the CRLF the printer leaves between the last header line and the
 separator. The head line and the header keys do round-trip.
 */
module HttpProofs {
  import opened Wrappers
  import opened Text
  import opened Http

  predicate NoCR(s: string) {
    '\r' !in s
  }

  /** A request whose head line, keys and values can be printed and read back. */
  predicate Printable(msg: HttpMessage, order: seq<string>) {
    && msg.header.Method?
    && !msg.header.verb.Head?
    && |msg.header.verb.route| > 0
    && NoWhitespace(msg.header.verb.route)
    && Enumerates(order, msg.headers)
    && (forall k :: k in msg.headers ==> NoCR(k) && ':' !in k && NoCR(msg.headers[k]))
  }

  /** The head as the printer lays it out: the head line and the header lines joined by CRLF. */
  function HeadText(msg: HttpMessage, order: seq<string>): string
    requires Enumerates(order, msg.headers)
  {
    Join(HeadPieces(msg, order), CRLF)
  }

  /** The head line followed by the header lines. */
  function HeadPieces(msg: HttpMessage, order: seq<string>): (ps: seq<string>)
    requires Enumerates(order, msg.headers)
    ensures |ps| == |order| + 1
  {
    [HeaderText(msg.header)] + HeaderLines(msg.headers, order)
  }

  /** The header values as `parse_message` reads them back: with the leading space kept. */
  function Spaced(headers: map<string, string>): map<string, string> {
    map k | k in headers :: " " + headers[k]
  }

  /** Spacing the values keeps the keys. */
  lemma SpacedKeys(headers: map<string, string>)
    ensures Spaced(headers).Keys == headers.Keys
  {
  }

  lemma OccursShift(a: string, b: string, pat: string, j: nat)
    ensures OccursAt(a + b, pat, |a| + j) <==> OccursAt(b, pat, j)
  {
    if j + |pat| <= |b| {
      assert (a + b)[|a| + j..|a| + j + |pat|] == b[j..j + |pat|];
    }
  }

  /** A position whose character differs from the pattern's first does not start it. */
  lemma FirstCharBlocks(s: string, pat: string, j: nat)
    requires |pat| > 0 && j < |s| && s[j] != pat[0]
    ensures !OccursAt(s, pat, j)
  {
    if j + |pat| <= |s| {
      assert s[j..j + |pat|][0] == s[j];
    }
  }

  /** No separator starts inside text joined by CRLF from non-empty pieces free of CR. */
  lemma {:induction false} NoSepInJoin(ps: seq<string>, tail: string)
    requires |ps| >= 1
    requires forall i :: 0 <= i < |ps| ==> |ps[i]| > 0 && NoCR(ps[i])
    ensures forall j :: 0 <= j < |Join(ps, CRLF)| ==> !OccursAt(Join(ps, CRLF) + tail, SEP, j)
    decreases |ps|
  {
    var p := ps[0];
    var s := Join(ps, CRLF) + tail;
    forall j | 0 <= j < |p|
      ensures !OccursAt(s, SEP, j)
    {
      JoinStarts(ps, CRLF);
      assert s[j] == p[j];
      FirstCharBlocks(s, SEP, j);
    }
    if |ps| > 1 {
      var rest := ps[1..];
      var jr := Join(rest, CRLF);
      NoSepInJoin(rest, tail);
      assert s == p + CRLF + (jr + tail);
      assert Join(ps, CRLF) == p + CRLF + jr;
      JoinStarts(rest, CRLF);
      assert jr[0] == rest[0][0];
      assert jr[0] != '\r';
      forall j | |p| <= j < |Join(ps, CRLF)|
        ensures !OccursAt(s, SEP, j)
      {
        if j == |p| {
          assert s[j + 2] == jr[0];
        } else if j == |p| + 1 {
          FirstCharBlocks(s, SEP, j);
        } else {
          var k: nat := j - |p| - 2;
          assert k < |jr|;
          OccursShift(p + CRLF, jr + tail, SEP, k);
          assert (p + CRLF) + (jr + tail) == s;
        }
      }
    }
  }

  /** Splitting CR-free pieces joined by CRLF gives the pieces back. */
  lemma {:induction false} SplitJoinCRLF(ps: seq<string>)
    requires |ps| >= 1
    requires forall i :: 0 <= i < |ps| ==> NoCR(ps[i])
    ensures Split(Join(ps, CRLF), CRLF) == ps
    decreases |ps|
  {
    var p := ps[0];
    if |ps| == 1 {
      forall j: nat ensures !OccursAt(p, CRLF, j) {
        if j < |p| {
          FirstCharBlocks(p, CRLF, j);
        }
      }
      SplitNone(p, CRLF);
    } else {
      var jr := Join(ps[1..], CRLF);
      forall j | 0 <= j < |p| ensures !OccursAt(p + CRLF + jr, CRLF, j) {
        assert (p + CRLF + jr)[j] == p[j];
        FirstCharBlocks(p + CRLF + jr, CRLF, j);
      }
      SplitAt(p, CRLF, jr);
      SplitJoinCRLF(ps[1..]);
      assert [p] + ps[1..] == ps;
    }
  }

  /** Terminating every line with CRLF after a first line is joining and adding one CRLF. */
  lemma {:induction false} TerminatedIsJoin(p: string, lines: seq<string>)
    ensures p + CRLF + Terminated(lines) == Join([p] + lines, CRLF) + CRLF
    decreases |lines|
  {
    if |lines| == 0 {
      assert [p] + lines == [p];
    } else {
      TerminatedIsJoin(lines[0], lines[1..]);
      assert ([p] + lines)[1..] == [lines[0]] + lines[1..];
      assert [lines[0]] + lines[1..] == lines;
    }
  }

  /** A key without ':' is recovered exactly from `key:value`. */
  lemma SplitKeyUnique(a: string, b: string, c: string, d: string)
    requires a + ":" + b == c + ":" + d
    requires ':' !in a && ':' !in c
    ensures a == c && b == d
  {
    var s := a + ":" + b;
    assert forall i :: 0 <= i < |a| ==> s[i] == a[i];
    assert forall i :: 0 <= i < |c| ==> s[i] == c[i];
    assert s[|a|] == ':' && s[|c|] == ':';
    assert |a| == |c|;
    assert a == s[..|a|] == c;
    assert b == s[|a| + 1..] == d;
  }

  /** A printed header line reads back as its key and the value with its leading space. */
  lemma PrintedLineParses(k: string, v: string)
    requires ':' !in k
    ensures ':' in k + ": " + v
    ensures ParseHeaderLine(k + ": " + v) == (k, " " + v)
  {
    var line := k + ": " + v;
    assert line == k + ":" + (" " + v);
    assert line[|k|] == ':';
    var kv := ParseHeaderLine(line);
    SplitKeyUnique(kv.0, kv.1, k, " " + v);
  }

  /** Each printed header line parses back to its key and its value with the leading space. */
  lemma PrintedPairs(headers: map<string, string>, order: seq<string>)
    requires forall i :: 0 <= i < |order| ==> order[i] in headers && ':' !in order[i]
    ensures HeaderLinesDefined(HeaderLines(headers, order))
    ensures var ps := ParsedLines(HeaderLines(headers, order));
      && |ps| == |order|
      && forall i :: 0 <= i < |ps| ==> ps[i] == (order[i], " " + headers[order[i]])
  {
    var lines := HeaderLines(headers, order);
    forall i | 0 <= i < |lines|
      ensures ':' in lines[i] && ParseHeaderLine(lines[i]) == (order[i], " " + headers[order[i]])
    {
      PrintedLineParses(order[i], headers[order[i]]);
    }
  }

  /** Collecting one pair per key of `headers`, each key once, gives the spaced headers. */
  lemma CollectedOnce(ps: seq<(string, string)>, headers: map<string, string>, order: seq<string>, r: map<string, string>)
    requires Enumerates(order, headers) && |ps| == |order|
    requires forall i :: 0 <= i < |ps| ==> ps[i] == (order[i], " " + headers[order[i]])
    requires Collected(ps, r)
    ensures r == Spaced(headers)
  {
    forall i | 0 <= i < |ps|
      ensures LastWithKey(ps, i)
    {
      forall j | i < j < |ps|
        ensures ps[j].0 != ps[i].0
      {
        assert ps[j].0 == order[j] && ps[i].0 == order[i];
      }
    }
    forall k | k in headers
      ensures k in r && r[k] == " " + headers[k]
    {
      var i :| 0 <= i < |order| && order[i] == k;
      assert ps[i].0 == k;
    }
    forall k | k in r
      ensures k in headers
    {
      var i :| 0 <= i < |ps| && ps[i].0 == k;
      assert ps[i].0 == order[i];
    }
    var spaced := Spaced(headers);
    SpacedKeys(headers);
    assert r.Keys == spaced.Keys;
    forall k | k in r
      ensures r[k] == spaced[k]
    {
    }
  }

  /** Collecting the printed header lines gives every key its value with the leading
      space the printer wrote after the ':'. */
  lemma CollectPrinted(headers: map<string, string>, order: seq<string>)
    requires Enumerates(order, headers)
    requires forall i :: 0 <= i < |order| ==> ':' !in order[i]
    ensures HeaderLinesDefined(HeaderLines(headers, order))
    ensures CollectHeaders(HeaderLines(headers, order)) == Spaced(headers)
  {
    var lines := HeaderLines(headers, order);
    PrintedPairs(headers, order);
    CollectedOnce(ParsedLines(lines), headers, order, CollectHeaders(lines));
  }

  /** The verb of a routed method: one word, free of CR, not starting like "HTTP". */
  lemma VerbFacts(m: HttpMethod)
    requires !m.Head?
    ensures |Verb(m)| > 0 && NoWhitespace(Verb(m)) && NoCR(Verb(m)) && Verb(m)[0] != 'H'
    ensures MethodText(m) == Verb(m) + " " + m.route
  {
    assert '\r' in Whitespace;
    match m {
      case Get(_) => VisibleNoWhitespace("GET");
      case Post(_) => VisibleNoWhitespace("POST");
      case Put(_) => VisibleNoWhitespace("PUT");
      case Delete(_) => VisibleNoWhitespace("DELETE");
      case Connect(_) => VisibleNoWhitespace("CONNECT");
    }
  }

  lemma VersionFacts(v: HttpVersion)
    ensures |VersionText(v)| > 0 && NoWhitespace(VersionText(v)) && NoCR(VersionText(v))
  {
    VisibleNoWhitespace(VersionText(v));
    assert '\r' in Whitespace;
  }

  /** The head line of a printable request splits into verb, route and version. */
  lemma HeadlineWords(msg: HttpMessage)
    requires msg.header.Method? && !msg.header.verb.Head?
    requires |msg.header.verb.route| > 0 && NoWhitespace(msg.header.verb.route)
    ensures Words(HeaderText(msg.header)) == [Verb(msg.header.verb), msg.header.verb.route, VersionText(msg.header.version)]
    ensures NoCR(HeaderText(msg.header))
    ensures HeaderText(msg.header)[0] != 'H'
  {
    var m := msg.header.verb;
    var v := msg.header.version;
    VerbFacts(m);
    VersionFacts(v);
    var text := Verb(m) + " " + m.route + " " + VersionText(v);
    assert HeaderText(msg.header) == text;
    ThreeWords(Verb(m), m.route, VersionText(v));
    assert '\r' in Whitespace;
    assert NoCR(m.route);
    assert text[0] == Verb(m)[0];
  }

  /** Every piece of a printable request's head is non-empty and free of CR. */
  lemma PiecesClean(msg: HttpMessage, order: seq<string>)
    requires Printable(msg, order)
    ensures forall i :: 0 <= i < |HeadPieces(msg, order)| ==> |HeadPieces(msg, order)[i]| > 0 && NoCR(HeadPieces(msg, order)[i])
  {
    var lines := HeaderLines(msg.headers, order);
    var ps := [HeaderText(msg.header)] + lines;
    HeadlineWords(msg);
    forall i | 0 <= i < |ps| ensures |ps[i]| > 0 && NoCR(ps[i]) {
      if i > 0 {
        var k := order[i - 1];
        assert ps[i] == k + ": " + msg.headers[k];
      }
    }
  }

  /** The printed head is everything before the first separator. */
  lemma HeadSplit(msg: HttpMessage, order: seq<string>, rest: string)
    requires Printable(msg, order)
    ensures Split(HeadText(msg, order) + SEP + rest, SEP) == [HeadText(msg, order)] + Split(rest, SEP)
  {
    var x := HeadText(msg, order);
    PiecesClean(msg, order);
    NoSepInJoin(HeadPieces(msg, order), SEP + rest);
    assert x + (SEP + rest) == x + SEP + rest;
    SplitAt(x, SEP, rest);
  }

  /** The words of the first piece start the words of text joined by CRLF. */
  lemma JoinWords(ps: seq<string>)
    requires |ps| >= 1 && |ps[0]| > 0
    ensures Words(ps[0]) <= Words(Join(ps, CRLF))
    ensures Join(ps, CRLF)[0] == ps[0][0]
  {
    JoinStarts(ps, CRLF);
    if |ps| > 1 {
      var jl := Join(ps[1..], CRLF);
      assert Join(ps, CRLF) == ps[0] + (CRLF + jl);
      assert IsWhitespace((CRLF + jl)[0]);
      WordsAppend(ps[0], CRLF + jl);
    }
  }

  /** A prefix is the initial slice of the sequence it starts. */
  lemma PrefixSlice(a: seq<string>, b: seq<string>)
    requires a <= b
    ensures b[..|a|] == a
  {
  }

  /** Text whose first character is not 'H' does not start with "HTTP". */
  lemma NotHttp(s: string)
    requires |s| > 0 && s[0] != 'H'
    ensures !StartsWith(s, "HTTP")
  {
    if |s| >= 4 {
      assert s[..4][0] == s[0];
    }
  }

  /** The printed head starts with the verb, route and version words and not with "HTTP". */
  lemma HeadTokens(msg: HttpMessage, order: seq<string>)
    requires Printable(msg, order)
    ensures |Words(HeadText(msg, order))| >= 3
    ensures Words(HeadText(msg, order))[..3] == [Verb(msg.header.verb), msg.header.verb.route, VersionText(msg.header.version)]
    ensures !StartsWith(HeadText(msg, order), "HTTP")
  {
    var ps := HeadPieces(msg, order);
    var head := HeadText(msg, order);
    assert head == Join(ps, CRLF);
    assert ps[0] == HeaderText(msg.header);
    HeadlineWords(msg);
    JoinWords(ps);
    PrefixSlice(Words(ps[0]), Words(head));
    NotHttp(head);
  }

  /** Reading a head line from tokens verb, route, version of a routed method. */
  lemma HeadlineFromTokens(head: string, m: HttpMethod, v: HttpVersion)
    requires !m.Head?
    requires |Words(head)| >= 3
    requires Words(head)[..3] == [Verb(m), m.route, VersionText(v)]
    requires !StartsWith(head, "HTTP")
    ensures HeadlineDefined(head)
    ensures ParseHeadline(head) == Method(v, m)
  {
    var t := Words(head);
    assert t[0] == Verb(m) && t[1] == m.route && t[2] == VersionText(v);
    VersionRoundTrip(v, "");
    assert VersionText(v) + "" == VersionText(v);
  }

  /** The printed head line reads back as the request's head line. */
  lemma HeadlinePrinted(msg: HttpMessage, order: seq<string>)
    requires Printable(msg, order)
    ensures HeadlineDefined(HeadText(msg, order))
    ensures ParseHeadline(HeadText(msg, order)) == msg.header
  {
    HeadTokens(msg, order);
    HeadlineFromTokens(HeadText(msg, order), msg.header.verb, msg.header.version);
  }

  /** The printed header lines read back as the spaced header map. */
  lemma HeadersPrinted(msg: HttpMessage, order: seq<string>)
    requires Printable(msg, order)
    ensures HeaderLinesDefined(HeaderLinesOf(HeadText(msg, order)))
    ensures CollectHeaders(HeaderLinesOf(HeadText(msg, order))) == Spaced(msg.headers)
  {
    PrintedHeaderLines(msg, order);
    CollectPrinted(msg.headers, order);
  }

  /** The lines after the head line of a printed head are the printed header lines. */
  lemma PrintedHeaderLines(msg: HttpMessage, order: seq<string>)
    requires Printable(msg, order)
    ensures HeaderLinesOf(HeadText(msg, order)) == HeaderLines(msg.headers, order)
  {
    var ps := HeadPieces(msg, order);
    PiecesClean(msg, order);
    SplitJoinCRLF(ps);
  }

  /** `parse_message` on a printed request head, a separator and any remainder: the head
      line comes back unchanged, each header value with its leading space, and the body is
      the remainder's first segment with trailing NULs trimmed. */
  lemma ParsePrintedHead(msg: HttpMessage, order: seq<string>, rest: string)
    requires Printable(msg, order)
    ensures ParseDefined(HeadText(msg, order) + SEP + rest)
    ensures ParseMessage(HeadText(msg, order) + SEP + rest)
         == HttpMessage(msg.header, Spaced(msg.headers), Some(TrimEndNuls(Split(rest, SEP)[0])))
  {
    HeadSplit(msg, order, rest);
    HeadlinePrinted(msg, order);
    HeadersPrinted(msg, order);
  }

  /** A message without a body prints as its head, the separator and one more CRLF. */
  lemma RenderShape(msg: HttpMessage, order: seq<string>)
    requires Enumerates(order, msg.headers)
    requires msg.body == None || msg.body == Some("")
    ensures Render(msg, order) == HeadText(msg, order) + SEP + CRLF
  {
    TerminatedIsJoin(HeaderText(msg.header), HeaderLines(msg.headers, order));
  }

  /** Printing a request and parsing it back restores the head line and the header keys;
      values gain their leading space and the body becomes the trailing CRLF. */
  lemma ParseRender(msg: HttpMessage, order: seq<string>)
    requires Printable(msg, order)
    requires msg.body == None || msg.body == Some("")
    ensures ParseDefined(Render(msg, order))
    ensures ParseMessage(Render(msg, order)) == HttpMessage(msg.header, Spaced(msg.headers), Some(CRLF))
  {
    RenderShape(msg, order);
    ParsePrintedHead(msg, order, CRLF);
    forall j: nat ensures !OccursAt(CRLF, SEP, j) {
    }
    SplitNone(CRLF, SEP);
  }

  /** A status line: version, status token and a reason of any words. */
  function StatusLine(v: HttpVersion, status: string, reason: string): string {
    VersionText(v) + " " + status + " " + reason
  }

  /** The words of a status line are its version, its status and the words of its reason. */
  lemma StatusLineWords(v: HttpVersion, status: string, reason: string)
    requires |status| > 0 && NoWhitespace(status) && NoCR(reason)
    ensures Words(StatusLine(v, status, reason)) == [VersionText(v), status] + Words(reason)
  {
    VersionFacts(v);
    TwoWordsThen(VersionText(v), status, reason);
  }

  /** A status line starts with its version text. */
  lemma StatusLineStart(v: HttpVersion, status: string, reason: string)
    ensures StartsWith(StatusLine(v, status, reason), VersionText(v))
  {
    assert StatusLine(v, status, reason)[..|VersionText(v)|] == VersionText(v);
  }

  /** What the parser needs of a status line: non-empty, free of CR, starting with its
      version, and with the version and the status as its first two words. */
  lemma StatusLineFacts(v: HttpVersion, status: string, reason: string)
    requires |status| > 0 && NoWhitespace(status) && NoCR(reason)
    ensures var line := StatusLine(v, status, reason);
      && |line| > 0 && NoCR(line) && StartsWith(line, VersionText(v))
      && |Words(line)| >= 2 && Words(line)[0] == VersionText(v) && Words(line)[1] == status
  {
    StatusLineClean(v, status, reason);
    StatusLineWords(v, status, reason);
    StatusLineStart(v, status, reason);
  }

  /** A status line holds no CR when its reason holds none. */
  lemma StatusLineClean(v: HttpVersion, status: string, reason: string)
    requires NoWhitespace(status) && NoCR(reason)
    ensures |StatusLine(v, status, reason)| > 0 && NoCR(StatusLine(v, status, reason))
  {
    VersionFacts(v);
    assert '\r' in Whitespace;
  }

  /** A status line starts with its version text. */
  lemma StatusLineVersion(v: HttpVersion, tail: string)
    ensures StartsWith(VersionText(v) + tail, "HTTP")
    ensures IsVersionText(VersionText(v) + tail) && VersionFromStr(VersionText(v) + tail) == v
  {
    VersionRoundTrip(v, tail);
    assert (VersionText(v) + tail)[..4] == VersionText(v)[..4];
  }

  /** A version text is no verb. */
  lemma VersionNotVerb(v: HttpVersion)
    ensures VersionText(v) !in RoutedVerbs && VersionText(v) != "HEAD"
  {
    assert |VersionText(v)| == 8;
  }

  /** A head that starts with a version text and whose first two words are that version
      and a status token reads as a `Status` carrying the token. */
  lemma StatusHeadline(head: string, v: HttpVersion, status: string)
    requires StartsWith(head, VersionText(v))
    requires |Words(head)| >= 2 && Words(head)[0] == VersionText(v) && Words(head)[1] == status
    ensures HeadlineDefined(head)
    ensures ParseHeadline(head) == Status(v, status)
  {
    var tail := head[|VersionText(v)|..];
    assert head == VersionText(v) + tail;
    StatusLineVersion(v, tail);
    VersionNotVerb(v);
  }

  /** A head keeps the start and the first two words of its first line. */
  lemma FirstLineWords(line: string, lines: seq<string>, a: string, b: string)
    requires |line| > 0 && StartsWith(line, a)
    requires |Words(line)| >= 2 && Words(line)[0] == a && Words(line)[1] == b
    ensures var head := Join([line] + lines, CRLF);
      StartsWith(head, a) && |Words(head)| >= 2 && Words(head)[0] == a && Words(head)[1] == b
  {
    var ps := [line] + lines;
    var head := Join(ps, CRLF);
    JoinWords(ps);
    PrefixSlice(Words(line), Words(head));
    JoinStarts(ps, CRLF);
    assert head[..|a|] == line[..|a|];
  }

  /** The header lines of a head joined from CR-free lines are the lines after the first. */
  lemma LinesAfterFirst(line: string, lines: seq<string>)
    requires NoCR(line) && forall i :: 0 <= i < |lines| ==> NoCR(lines[i])
    ensures HeaderLinesOf(Join([line] + lines, CRLF)) == lines
  {
    var ps := [line] + lines;
    forall i | 0 <= i < |ps| ensures NoCR(ps[i]) {
      if i > 0 {
        assert ps[i] == lines[i - 1];
      }
    }
    SplitJoinCRLF(ps);
    assert ps[1..] == lines;
  }

  /** Text joined by CRLF from non-empty CR-free lines, then the separator, splits at that
      separator first. */
  lemma HeadBeforeSep(ps: seq<string>, rest: string)
    requires |ps| >= 1 && forall i :: 0 <= i < |ps| ==> |ps[i]| > 0 && NoCR(ps[i])
    ensures Split(Join(ps, CRLF) + SEP + rest, SEP)[0] == Join(ps, CRLF)
    ensures |Split(Join(ps, CRLF) + SEP + rest, SEP)| >= 2
  {
    var head := Join(ps, CRLF);
    NoSepInJoin(ps, SEP + rest);
    assert head + (SEP + rest) == head + SEP + rest;
    SplitAt(head, SEP, rest);
  }

  /** A head followed by the separator: what `parse_message` makes of it depends on the
      head alone. */
  lemma ParseOfHead(head: string, rest: string)
    requires Split(head + SEP + rest, SEP)[0] == head && |Split(head + SEP + rest, SEP)| >= 2
    requires HeadlineDefined(head) && HeaderLinesDefined(HeaderLinesOf(head))
    ensures ParseDefined(head + SEP + rest)
    ensures ParseMessage(head + SEP + rest).header == ParseHeadline(head)
    ensures ParseMessage(head + SEP + rest).headers == CollectHeaders(HeaderLinesOf(head))
  {
  }

  /** A head whose first line starts with a version and whose first two words are that
      version and a status token, followed by header lines, the separator and anything
      else, reads back as a `Status` carrying the token, with the headers those lines give. */
  lemma ParseStatusHead(line: string, lines: seq<string>, rest: string, v: HttpVersion, status: string)
    requires |line| > 0 && NoCR(line) && StartsWith(line, VersionText(v))
    requires |Words(line)| >= 2 && Words(line)[0] == VersionText(v) && Words(line)[1] == status
    requires forall i :: 0 <= i < |lines| ==> NoCR(lines[i]) && ':' in lines[i]
    ensures var buffer := Join([line] + lines, CRLF) + SEP + rest;
      && ParseDefined(buffer)
      && ParseMessage(buffer).header == Status(v, status)
      && ParseMessage(buffer).headers == CollectHeaders(lines)
  {
    var ps := [line] + lines;
    var head := Join(ps, CRLF);
    forall i | 0 <= i < |ps| ensures |ps[i]| > 0 && NoCR(ps[i]) {
      if i > 0 {
        assert ps[i] == lines[i - 1];
      }
    }
    HeadBeforeSep(ps, rest);
    LinesAfterFirst(line, lines);
    FirstLineWords(line, lines, VersionText(v), status);
    StatusHeadline(head, v, status);
    ParseOfHead(head, rest);
  }

  /** A response `<version> <status> <reason>` followed by header lines, the separator and
      anything else reads back as a `Status` carrying the status token, with the headers
      those lines give. */
  lemma ParseStatusLine(v: HttpVersion, status: string, reason: string, lines: seq<string>, rest: string)
    requires |status| > 0 && NoWhitespace(status) && NoCR(reason)
    requires forall i :: 0 <= i < |lines| ==> NoCR(lines[i]) && ':' in lines[i]
    ensures var buffer := Join([StatusLine(v, status, reason)] + lines, CRLF) + SEP + rest;
      && ParseDefined(buffer)
      && ParseMessage(buffer).header == Status(v, status)
      && ParseMessage(buffer).headers == CollectHeaders(lines)
  {
    var line := StatusLine(v, status, reason);
    StatusLineFacts(v, status, reason);
    ParseStatusHead(line, lines, rest, v, status);
  }

  /** The printer and the parser disagree on responses: a printed status head line,
      `<status> <version>`, has two tokens and does not start with "HTTP", so
      `parse_message` would panic on it. */
  lemma PrintedStatusUnparsable(v: HttpVersion, status: string)
    requires |status| > 0 && NoWhitespace(status) && status[0] != 'H'
    ensures Words(HeaderText(Status(v, status))) == [status, VersionText(v)]
    ensures !HeadlineDefined(HeaderText(Status(v, status)))
  {
    var head := HeaderText(Status(v, status));
    VisibleNoWhitespace(VersionText(v));
    WordThen(status, VersionText(v));
    assert head[0] == status[0];
  }

  /** The head line of the request in rlb's tests. */
  lemma ExampleHeadline()
    ensures HeaderText(Method(V11, Get("/hello"))) == "GET /hello HTTP/1.1"
  {
  }

  /** The header line of the request in rlb's tests. */
  lemma ExampleHeaderLines()
    ensures HeaderLines(map["Host" := "localhost"], ["Host"]) == ["Host: localhost"]
  {
    var headers := map["Host" := "localhost"];
    assert ["Host"][1..] == [];
    assert headers["Host"] == "localhost";
    assert "Host" + ": " + "localhost" == "Host: localhost";
  }

  /** The head of the request in rlb's tests, as the printer lays it out. */
  lemma ExampleHead()
    ensures HeadText(HttpMessage(Method(V11, Get("/hello")), map["Host" := "localhost"], None), ["Host"])
         == "GET /hello HTTP/1.1\r\nHost: localhost"
  {
    var msg := HttpMessage(Method(V11, Get("/hello")), map["Host" := "localhost"], None);
    ExampleHeadline();
    ExampleHeaderLines();
    var ps := HeadPieces(msg, ["Host"]);
    assert ps == ["GET /hello HTTP/1.1", "Host: localhost"];
    assert ps[1..] == ["Host: localhost"];
    assert Join(ps, CRLF) == "GET /hello HTTP/1.1" + CRLF + "Host: localhost";
  }

  /** The rendering of a request in rlb's tests. */
  lemma RenderExample()
    ensures Render(HttpMessage(Method(V11, Get("/hello")), map["Host" := "localhost"], None), ["Host"])
         == "GET /hello HTTP/1.1\r\nHost: localhost\r\n\r\n\r\n"
  {
    var msg := HttpMessage(Method(V11, Get("/hello")), map["Host" := "localhost"], None);
    RenderShape(msg, ["Host"]);
    ExampleHead();
    assert "GET /hello HTTP/1.1\r\nHost: localhost" + SEP + CRLF == "GET /hello HTTP/1.1\r\nHost: localhost\r\n\r\n\r\n";
  }

  /** The request of rlb's parse test is the printed head of a GET with one header. */
  lemma ExampleBuffer(buffer: string)
    requires buffer == "GET /hello HTTP/1.1\r\nHost: localhost\r\n\r\n"
    ensures Printable(HttpMessage(Method(V11, Get("/hello")), map["Host" := "localhost"], None), ["Host"])
    ensures buffer == HeadText(HttpMessage(Method(V11, Get("/hello")), map["Host" := "localhost"], None), ["Host"]) + SEP + ""
  {
    ExampleHead();
    VisibleNoWhitespace("/hello");
    assert NoCR("Host") && ':' !in "Host" && NoCR("localhost");
    assert "GET /hello HTTP/1.1\r\nHost: localhost" + SEP + "" == buffer;
  }

  /** The message rlb's parse test reads, as this model parses it. */
  lemma ParseExampleMessage(buffer: string)
    requires buffer == "GET /hello HTTP/1.1\r\nHost: localhost\r\n\r\n"
    ensures ParseDefined(buffer)
    ensures ParseMessage(buffer).header == Method(V11, Get("/hello"))
    ensures ParseMessage(buffer).headers == Spaced(map["Host" := "localhost"])
  {
    var msg := HttpMessage(Method(V11, Get("/hello")), map["Host" := "localhost"], None);
    ExampleBuffer(buffer);
    ParsePrintedHead(msg, ["Host"], "");
  }

  /** The parse in rlb's tests: method, version, Host key and route of a GET request. */
  lemma ParseExample(buffer: string)
    requires buffer == "GET /hello HTTP/1.1\r\nHost: localhost\r\n\r\n"
    ensures ParseDefined(buffer)
    ensures MethodOf(ParseMessage(buffer)) == Some(Get("/hello"))
    ensures VersionOf(ParseMessage(buffer)) == Some(V11)
    ensures "Host" in ParseMessage(buffer).headers
    ensures Route(ParseMessage(buffer)) == Some("/hello")
  {
    ParseExampleMessage(buffer);
    SpacedKeys(map["Host" := "localhost"]);
  }
}

=== FILE: pool.dfy ===
/**
 The backend pool: an ordered list of backends and the strategy that picks among them.
 Selection asks the strategy again and again until it names a live slot, and gives up
 only when no backend is alive at all. That loop has no bound in general (least-traffic
 and hashing always probe the same slot), so the model runs it on `fuel`, one unit per
 strategy call, and reports `OutOfFuel` when the budget is spent.
 */
module Pool {
  import opened Wrappers
  import opened Backends
  import opened Balancing

  datatype BackendError = NoBackendAlive

  datatype BackendPool = BackendPool(backends: seq<Backend>, balancer: Balancer)

  /** How a bounded run of the selection loop ended. */
  datatype Run = Finished(result: Result<nat, BackendError>) | OutOfFuel

  /** `BackendPool::len`. */
  function Len(pool: BackendPool): nat {
    |pool.backends|
  }

  /** Indexing, `pool[i]`; an index past the end panics in the source. */
  function At(pool: BackendPool, i: nat): Backend
    requires i < Len(pool)
  {
    pool.backends[i]
  }

  /** `BackendPool::new`: no backends. */
  function NewPool(balancer: Balancer): (pool: BackendPool)
    ensures Len(pool) == 0 && pool.balancer == balancer
  {
    BackendPool([], balancer)
  }

  /** `BackendPool::from_backends_list`: same backends, same order. */
  function FromBackendsList(backends: seq<Backend>, balancer: Balancer): (pool: BackendPool)
    ensures Len(pool) == |backends| && pool.balancer == balancer
    ensures forall i :: 0 <= i < |backends| ==> At(pool, i) == backends[i]
  {
    BackendPool(backends, balancer)
  }

  /** `BackendPool::push`: appends at the end and leaves earlier slots as they were. */
  function Push(pool: BackendPool, backend: Backend): (r: BackendPool)
    ensures Len(r) == Len(pool) + 1 && At(r, Len(pool)) == backend
    ensures forall i :: 0 <= i < Len(pool) ==> At(r, i) == At(pool, i)
    ensures r.balancer == pool.balancer
  {
    BackendPool(pool.backends + [backend], pool.balancer)
  }

  /** Mutable indexing, `pool[i] = …`, as the probe and the proxy path use it. */
  function SetAt(pool: BackendPool, i: nat, backend: Backend): (r: BackendPool)
    requires i < Len(pool)
    ensures Len(r) == Len(pool) && At(r, i) == backend
    ensures forall j :: 0 <= j < Len(pool) && j != i ==> At(r, j) == At(pool, j)
    ensures r.balancer == pool.balancer
  {
    pool.(backends := pool.backends[i := backend])
  }

  /** `len` counts the slots: none in a new pool, one more per push, and as many as the
      list a pool is built from. */
  lemma LenCounts(pool: BackendPool, backend: Backend, backends: seq<Backend>, balancer: Balancer)
    ensures Len(NewPool(balancer)) == 0
    ensures Len(Push(pool, backend)) == Len(pool) + 1
    ensures Len(FromBackendsList(backends, balancer)) == |backends|
  {
  }

  /** Indexing reads what was put in a slot: the pushed backend at the old length, the
      earlier contents below it, and what a write through `pool[i]` stored. */
  lemma IndexReads(pool: BackendPool, i: nat, backend: Backend)
    requires i < Len(pool)
    ensures At(Push(pool, backend), Len(pool)) == backend
    ensures At(Push(pool, backend), i) == At(pool, i)
    ensures At(SetAt(pool, i, backend), i) == backend
  {
  }

  /** `has_backends_available`: some backend is alive. */
  function HasBackendsAvailable(backends: seq<Backend>): (r: bool)
    ensures r <==> exists i :: 0 <= i < |backends| && backends[i].alive
  {
    if |backends| == 0 then false
    else
      var r := backends[0].alive || HasBackendsAvailable(backends[1..]);
      assert forall i :: 1 <= i < |backends| ==> backends[i] == backends[1..][i - 1];
      r
  }

  /** The loop of `BackendPool::next_backend`: check that some backend is alive, ask the
      strategy, and stop at the first slot it names. `call` numbers the strategy calls. */
  function Loop(backends: seq<Backend>, balancer: Balancer, env: Env, call: nat, fuel: nat): (r: (Balancer, Run))
    ensures r.1.Finished? && r.1.result.Ok? ==>
      r.1.result.value < |backends| && backends[r.1.result.value].alive
    ensures r.1 == Finished(Err(NoBackendAlive)) <==> !HasBackendsAvailable(backends)
    ensures !HasBackendsAvailable(backends) ==> r.0 == balancer
    ensures AlgorithmOf(r.0) == AlgorithmOf(balancer)
    decreases fuel
  {
    if !HasBackendsAvailable(backends) then (balancer, Finished(Err(NoBackendAlive)))
    else if fuel == 0 then (balancer, OutOfFuel)
    else
      var (next, probe) := Step(balancer, backends, env, call);
      match probe
      case Some(i) => (next, Finished(Ok(i)))
      case None => Loop(backends, next, env, call + 1, fuel - 1)
  }

  /** `BackendPool::next_backend` with at most `fuel` strategy calls. The backends never
      change; only the strategy's state does, and not at all when none is alive. */
  function NextBackend(pool: BackendPool, env: Env, fuel: nat): (r: (BackendPool, Run))
    ensures r.0.backends == pool.backends
    ensures r.1 == Finished(Err(NoBackendAlive)) <==> !HasBackendsAvailable(pool.backends)
    ensures !HasBackendsAvailable(pool.backends) ==> r.0 == pool
    ensures r.1.Finished? && r.1.result.Ok? ==> r.1.result.value < Len(pool) && At(pool, r.1.result.value).alive
    ensures AlgorithmOf(r.0.balancer) == AlgorithmOf(pool.balancer)
  {
    var (balancer, run) := Loop(pool.backends, pool.balancer, env, 0, fuel);
    (pool.(balancer := balancer), run)
  }

  /** Steps from slot `from` forward to slot `to`, wrapping around a list of length `n`. */
  function Dist(from: nat, to: nat, n: nat): nat
    requires from < n && to < n
  {
    if from <= to then to - from else to + n - from
  }

  /** Advancing the cursor by one brings every other slot one step nearer. */
  lemma DistStep(p: nat, x: nat, n: nat)
    requires p < n && x < n && x != p
    ensures Dist(p, x, n) == Dist((p + 1) % n, x, n) + 1
  {
    if p + 1 == n {
      assert (p + 1) % n == 0;
    } else {
      assert (p + 1) % n == p + 1;
    }
  }

  /** One round-robin turn of the loop: a live slot at the cursor ends it, a dead one
      hands over to the next slot with one call fewer. */
  lemma RoundRobinProbe(backends: seq<Backend>, cursor: nat, env: Env, call: nat, fuel: nat)
    requires HasBackendsAvailable(backends) && fuel > 0
    ensures var p := cursor % |backends|;
      Loop(backends, RoundRobinBalancer(cursor), env, call, fuel)
        == if backends[p].alive then (RoundRobinBalancer(p + 1), Finished(Ok(p)))
           else Loop(backends, RoundRobinBalancer(p + 1), env, call + 1, fuel - 1)
  {
    var step := Step(RoundRobinBalancer(cursor), backends, env, call);
    assert step.0 == RoundRobinBalancer(cursor % |backends| + 1);
  }

  /** Round-robin reaches a live `target` within its distance from the cursor, and the slot
      it settles on is no farther than `target`; the cursor ends just past that slot. */
  lemma {:induction false} RoundRobinFinds(backends: seq<Backend>, cursor: nat, env: Env, call: nat, fuel: nat, target: nat)
    requires target < |backends| && backends[target].alive
    requires fuel > Dist(cursor % |backends|, target, |backends|)
    ensures var r := Loop(backends, RoundRobinBalancer(cursor), env, call, fuel);
      r.1.Finished? && r.1.result.Ok?
      && Dist(cursor % |backends|, r.1.result.value, |backends|) <= Dist(cursor % |backends|, target, |backends|)
      && r.0 == RoundRobinBalancer(r.1.result.value + 1)
    decreases Dist(cursor % |backends|, target, |backends|)
  {
    var n := |backends|;
    var p := cursor % n;
    var r := Loop(backends, RoundRobinBalancer(cursor), env, call, fuel);
    RoundRobinProbe(backends, cursor, env, call, fuel);
    if backends[p].alive {
      assert r == (RoundRobinBalancer(p + 1), Finished(Ok(p)));
    } else {
      var rest := Loop(backends, RoundRobinBalancer(p + 1), env, call + 1, fuel - 1);
      assert r == rest;
      DistStep(p, target, n);
      RoundRobinFinds(backends, p + 1, env, call + 1, fuel - 1, target);
      var i := rest.1.result.value;
      DistStep(p, i, n);
      assert Dist(p, i, n) <= Dist(p, target, n);
      assert rest.0 == RoundRobinBalancer(i + 1);
    }
  }

  /** With round-robin and a live backend, `len` strategy calls are enough: selection
      ends with the first live slot at or after the cursor, wrapping around. */
  lemma RoundRobinTerminates(pool: BackendPool, env: Env, fuel: nat)
    requires pool.balancer.RoundRobinBalancer?
    requires HasBackendsAvailable(pool.backends)
    requires fuel >= Len(pool)
    ensures var r := NextBackend(pool, env, fuel);
      r.1.Finished? && r.1.result.Ok?
      && forall j :: 0 <= j < Len(pool) && At(pool, j).alive ==>
           Dist(pool.balancer.nextIndex % Len(pool), r.1.result.value, Len(pool))
             <= Dist(pool.balancer.nextIndex % Len(pool), j, Len(pool))
  {
    var n := Len(pool);
    var cursor := pool.balancer.nextIndex;
    var target :| 0 <= target < n && pool.backends[target].alive;
    RoundRobinFinds(pool.backends, cursor, env, 0, fuel, target);
    forall j | 0 <= j < n && At(pool, j).alive
      ensures Dist(cursor % n, NextBackend(pool, env, fuel).1.result.value, n) <= Dist(cursor % n, j, n)
    {
      RoundRobinFinds(pool.backends, cursor, env, 0, fuel, j);
    }
  }

  /** Least-traffic whose least-loaded slot is dead, while another is alive, never ends:
      every budget runs out. */
  lemma {:induction false} LeastTrafficSpins(backends: seq<Backend>, env: Env, call: nat, fuel: nat)
    requires HasBackendsAvailable(backends)
    requires |backends| > 0 && !backends[FirstMinTraffic(backends)].alive
    ensures Loop(backends, LeastTrafficBalancer, env, call, fuel) == (LeastTrafficBalancer, OutOfFuel)
    decreases fuel
  {
    if fuel > 0 {
      LeastTrafficSpins(backends, env, call + 1, fuel - 1);
    }
  }

  /** Hashing of a response, or of a request whose slot is dead, never ends while some
      other backend is alive. */
  lemma {:induction false} HashingSpins(request: Http.HttpMessage, backends: seq<Backend>, env: Env, call: nat, fuel: nat)
    requires HasBackendsAvailable(backends)
    requires request.header.Status? || (|backends| > 0 && !backends[env.hash(request.header.verb) % |backends|].alive)
    ensures Loop(backends, HashingBalancer(request), env, call, fuel) == (HashingBalancer(request), OutOfFuel)
    decreases fuel
  {
    if fuel > 0 {
      HashingSpins(request, backends, env, call + 1, fuel - 1);
    }
  }

  /** rlb's pool tests: `new` is empty and `push` adds one; a list of two keeps two. */
  lemma PoolLenExample(balancer: Balancer)
    ensures Len(NewPool(balancer)) == 0
    ensures Len(Push(NewPool(balancer), NewBackend(":5000", None))) == 1
    ensures Len(FromBackendsList([NewBackend(":5000", None), NewBackend(":5001", None)], balancer)) == 2
  {
  }

  /** rlb's selection test: a fresh round-robin pool of two dead backends fails;
      once slot 1 is alive the next selection gives 1. */
  lemma NextBackendExample(a: Backend, b: Backend, env: Env, fuel: nat)
    requires !a.alive && !b.alive
    requires fuel >= 2
    ensures var pool := FromBackendsList([a, b], RoundRobinBalancer(0));
      var (after, run) := NextBackend(pool, env, fuel);
      run == Finished(Err(NoBackendAlive))
      && NextBackend(SetAt(after, 1, SetOnline(At(after, 1))), env, fuel).1 == Finished(Ok(1))
  {
    var pool := FromBackendsList([a, b], RoundRobinBalancer(0));
    assert !HasBackendsAvailable(pool.backends);
    var after := NextBackend(pool, env, fuel).0;
    var live := SetAt(after, 1, SetOnline(At(after, 1)));
    assert live.backends[1].alive && !live.backends[0].alive;
    assert HasBackendsAvailable(live.backends);
    assert after.balancer == RoundRobinBalancer(0);
    assert Step(RoundRobinBalancer(0), live.backends, env, 0) == (RoundRobinBalancer(1), None);
    assert Step(RoundRobinBalancer(1), live.backends, env, 1) == (RoundRobinBalancer(2), Some(1));
    assert Loop(live.backends, RoundRobinBalancer(1), env, 1, fuel - 1).1 == Finished(Ok(1));
    assert Loop(live.backends, RoundRobinBalancer(0), env, 0, fuel).1 == Finished(Ok(1));
  }
}

=== FILE: server.dfy ===
/**
 The decision rules of the proxy server, with every socket operation replaced by its
 outcome: the health probe's online/offline rule and one probe tick over the pool, the
 rewrite and byte bookkeeping of one proxied request, the outcome of one client session,
 and the back-off schedule of `accept`.
 */
module Server {
  import opened Wrappers
  import opened Text
  import opened Backends
  import opened Balancing
  import opened Pool
  import opened Http
  import opened HttpProofs

  /** Size of the fixed read buffers. */
  const BufSize: nat := 2048

  /** The longest back-off wait, in seconds, after which a further failure is final. */
  const MaxBackoff: nat := 64

  // ---------------------------------------------------------------- health probe

  /** What the network did when one backend was probed: whether the TCP connect
      succeeded and, if a health request was exchanged, the parsed reply (`None` when
      writing the request or reading the reply failed). */
  datatype Probe = Probe(connected: bool, reply: Option<HttpMessage>)

  /** The request the probe sends to a health endpoint: a GET of the endpoint with the
      backend's address as `Host`. */
  function HealthRequest(b: Backend): (r: HttpMessage)
    requires b.healthEndpoint.Some?
    ensures MethodOf(r) == Some(Get(b.healthEndpoint.value))
    ensures VersionOf(r) == Some(V11) && r.body == None
    ensures r.headers.Keys == {"Host"} && r.headers["Host"] == b.addr
  {
    NewMessage(Get(b.healthEndpoint.value), map["Host" := b.addr])
  }

  /** A reply counts as healthy when its status code parses to 200. */
  predicate HealthyReply(reply: HttpMessage) {
    StatusCodeOf(reply) == Some(StatusCode(200))
  }

  /** The probe rule for one backend; `None` when an I/O error on the health exchange
      ends the whole probe worker. */
  function ProbeRule(b: Backend, p: Probe): (r: Option<Backend>)
    ensures r.None? <==> p.connected && b.healthEndpoint.Some? && p.reply.None?
    ensures r.Some? ==> (r.value.alive <==>
      p.connected && (b.healthEndpoint.None? || HealthyReply(p.reply.value)))
    ensures r.Some? ==>
      r.value.addr == b.addr && r.value.byteTraffic == b.byteTraffic && r.value.healthEndpoint == b.healthEndpoint
  {
    if !p.connected then Some(SetOffline(b))
    else match b.healthEndpoint
      case None => Some(SetOnline(b))
      case Some(_) =>
        match p.reply
        case None => None
        case Some(reply) => Some(if HealthyReply(reply) then SetOnline(b) else SetOffline(b))
  }

  /** A response whose status line reads `200` (with any reason and version) is healthy;
      one reading `503` is not. */
  lemma HealthyStatusLines(v: HttpVersion, headers: map<string, string>, body: Option<string>)
    ensures HealthyReply(HttpMessage(Status(v, "200"), headers, body))
    ensures !HealthyReply(HttpMessage(Status(v, "503"), headers, body))
  {
    StatusCodeRoundTrip(200);
    StatusCodeRoundTrip(503);
    assert ThreeDigits(200) == "200";
    assert ThreeDigits(503) == "503";
  }

  /** One tick of `probe_backends`: the backends are probed one after another in pool
      order; the first aborted exchange stops the tick, leaving that backend and the ones
      after it untouched. `visited` counts the backends the tick updated. */
  method ProbeTick(pool: BackendPool, probes: seq<Probe>) returns (r: BackendPool, visited: nat)
    requires |probes| == Len(pool)
    ensures Len(r) == Len(pool) && r.balancer == pool.balancer
    ensures visited <= Len(pool)
    ensures forall i :: 0 <= i < visited ==> ProbeRule(At(pool, i), probes[i]) == Some(At(r, i))
    ensures visited < Len(pool) ==> ProbeRule(At(pool, visited), probes[visited]).None?
    ensures forall i :: visited <= i < Len(pool) ==> At(r, i) == At(pool, i)
  {
    r := pool;
    visited := 0;
    while visited < Len(pool)
      invariant visited <= Len(pool)
      invariant Len(r) == Len(pool) && r.balancer == pool.balancer
      invariant forall i :: 0 <= i < visited ==> ProbeRule(At(pool, i), probes[i]) == Some(At(r, i))
      invariant forall i :: visited <= i < Len(pool) ==> At(r, i) == At(pool, i)
    {
      var next := ProbeRule(At(r, visited), probes[visited]);
      if next.None? {
        return;
      }
      r := SetAt(r, visited, next.value);
      visited := visited + 1;
    }
  }

  /** After a completed tick a backend is alive exactly when its probe connected and, if it
      has a health endpoint, the reply was healthy; addresses, traffic and endpoints keep. */
  lemma ProbeTickLiveness(pool: BackendPool, probes: seq<Probe>, r: BackendPool, i: nat)
    requires |probes| == Len(pool) && Len(r) == Len(pool) && i < Len(pool)
    requires ProbeRule(At(pool, i), probes[i]) == Some(At(r, i))
    ensures At(r, i).alive <==>
      (probes[i].connected && (At(pool, i).healthEndpoint.None? || HealthyReply(probes[i].reply.value)))
    ensures At(r, i).addr == At(pool, i).addr && At(r, i).byteTraffic == At(pool, i).byteTraffic
  {
  }

  // ---------------------------------------------------------------- proxied request

  /** The request as forwarded: the `Host` value replaced by the backend address, the head
      line, the body and every other header kept. */
  function ForwardedRequest(request: HttpMessage, addr: string): (r: HttpMessage)
    requires "Host" in request.headers
    ensures r.header == request.header && r.body == request.body
    ensures r.headers.Keys == request.headers.Keys
    ensures r.headers["Host"] == addr
    ensures forall k :: k in request.headers && k != "Host" ==> r.headers[k] == request.headers[k]
  {
    request.(headers := request.headers["Host" := addr])
  }

  /** Forwarding twice is forwarding once, to the last address. */
  lemma ForwardTwice(request: HttpMessage, a1: string, a2: string)
    requires "Host" in request.headers
    ensures ForwardedRequest(ForwardedRequest(request, a1), a2) == ForwardedRequest(request, a2)
  {
  }

  /** What the exchange with the chosen backend did. `sent` is the count `write` reported,
      `received` the count read back (after the chunked-read loop, if any). */
  datatype Upstream =
    | ConnectFailed
    | WriteFailed
    | ReadFailed(sent: nat)
    | ShutdownFailed(sent: nat, received: nat)
    | Replied(sent: nat, received: nat, reply: string)

  /** `n` NUL characters. */
  function Nuls(n: nat): string {
    seq(n, _ => '\0')
  }

  /** The zero fill after a read holds no separator and trims away entirely. */
  lemma NulsFacts(n: nat)
    ensures Split(Nuls(n), SEP) == [Nuls(n)]
    ensures TrimEndNuls(Nuls(n)) == ""
  {
    var fill := Nuls(n);
    forall j: nat ensures !OccursAt(fill, SEP, j) {
      if j + |SEP| <= |fill| {
        assert fill[j..j + |SEP|][0] == '\0';
      }
    }
    SplitNone(fill, SEP);
    TrimAllNuls(fill);
  }

  /** The client's bytes as `handle_request` sees them: the whole fixed buffer, zero-filled
      past what was read. */
  function Padded(received: string): (buffer: string)
    requires |received| <= BufSize
    ensures |buffer| == BufSize && buffer[..|received|] == received
    ensures forall i :: |received| <= i < BufSize ==> buffer[i] == '\0'
  {
    received + Nuls(BufSize - |received|)
  }

  /** `parse_message(buffer).unwrap()` and the `Host` lookup of `handle_request` succeed:
      the buffer parses and carries a `Host` header. */
  predicate RequestDefined(buffer: string) {
    ParseDefined(buffer) && "Host" in ParseMessage(buffer).headers
  }

  /** A printed request head read into the fixed buffer parses back: the zero fill after
      the separator is trimmed away, so the body is empty and the request can be forwarded
      once it names a `Host`. */
  lemma ParsePaddedRequest(msg: HttpMessage, order: seq<string>)
    requires Printable(msg, order)
    requires |HeadText(msg, order) + SEP| <= BufSize
    ensures ParseDefined(Padded(HeadText(msg, order) + SEP))
    ensures ParseMessage(Padded(HeadText(msg, order) + SEP)) == HttpMessage(msg.header, Spaced(msg.headers), Some(""))
    ensures "Host" in msg.headers ==> RequestDefined(Padded(HeadText(msg, order) + SEP))
  {
    var head := HeadText(msg, order);
    var fill := Nuls(BufSize - |head + SEP|);
    assert Padded(head + SEP) == head + SEP + fill;
    NulsFacts(BufSize - |head + SEP|);
    ParsePrintedHead(msg, order, fill);
    SpacedKeys(msg.headers);
  }

  /** What `handle_request` did with the client's buffer. `Rejected`: the buffer does not
      parse or has no `Host` header, and the task panics before connecting. `Exchanged`:
      `request` is the rewritten request written to the backend once connected, and
      `reply` the reply text, `None` on an I/O error. */
  datatype Exchange =
    | Rejected
    | Exchanged(request: HttpMessage, reply: Option<string>)

  /** `handle_request` on the chosen backend. The client's request is parsed and its `Host`
      replaced by the backend's address before it is written; the traffic counter is set to
      the request size once written and then overwritten with the response size. */
  function HandleRequest(buffer: string, b: Backend, up: Upstream): (r: (Backend, Exchange))
    ensures r.1.Rejected? <==> !RequestDefined(buffer)
    ensures r.0.addr == b.addr && r.0.alive == b.alive && r.0.healthEndpoint == b.healthEndpoint
    ensures r.1.Rejected? || up.ConnectFailed? || up.WriteFailed? ==> r.0 == b
    ensures r.1.Exchanged? ==>
      && r.1.request == ForwardedRequest(ParseMessage(buffer), b.addr)
      && r.1.request.headers["Host"] == b.addr
      && (r.1.reply.Some? <==> up.Replied?)
      && (r.1.reply.Some? ==> r.1.reply.value == up.reply)
      && (up.ReadFailed? ==> ByteTraffic(r.0) == up.sent)
      && (up.ShutdownFailed? || up.Replied? ==> ByteTraffic(r.0) == up.received)
  {
    if !RequestDefined(buffer) then (b, Rejected)
    else
      var request := ForwardedRequest(ParseMessage(buffer), b.addr);
      match up
      case ConnectFailed => (b, Exchanged(request, None))
      case WriteFailed => (b, Exchanged(request, None))
      case ReadFailed(sent) => (IncreaseByteTraffic(b, sent), Exchanged(request, None))
      case ShutdownFailed(sent, received) =>
        (IncreaseByteTraffic(IncreaseByteTraffic(b, sent), received), Exchanged(request, None))
      case Replied(sent, received, reply) =>
        (IncreaseByteTraffic(IncreaseByteTraffic(b, sent), received), Exchanged(request, Some(reply)))
  }

  /** After a proxied request the counter holds the response size alone: neither the
      request size nor the earlier count leaves a trace. */
  lemma TrafficIsLastResponse(buffer: string, b1: Backend, b2: Backend, sent1: nat, sent2: nat, received: nat, reply: string)
    requires RequestDefined(buffer)
    requires b1.addr == b2.addr && b1.alive == b2.alive && b1.healthEndpoint == b2.healthEndpoint
    ensures HandleRequest(buffer, b1, Replied(sent1, received, reply))
         == HandleRequest(buffer, b2, Replied(sent2, received, reply))
  {
  }

  // ---------------------------------------------------------------- client session

  /** How one client session ended. `RequestRejected` is the panic of `handle_request` on a
      malformed request: a slot was chosen, so round-robin's cursor has moved, but no
      backend was contacted. */
  datatype Session =
    | ClientReadFailed
    | NoBackend
    | SelectionUnfinished
    | RequestRejected(index: nat)
    | UpstreamFailed(index: nat)
    | Served(index: nat, reply: string)

  /** The session reached the point where a slot was chosen. */
  predicate Chosen(s: Session) {
    s.RequestRejected? || s.UpstreamFailed? || s.Served?
  }

  /** `handle_connection` under the pool lock: `client` is the text read from the client
      (`None` when reading failed; `peek` fills at most the 2048-byte buffer), `fuel`
      bounds the selection loop and `up` is the exchange with whichever backend is chosen. */
  function HandleConnection(pool: BackendPool, client: Option<string>, env: Env, fuel: nat, up: Upstream): (r: (BackendPool, Session))
    requires client.Some? ==> |client.value| <= BufSize
    ensures r.1 == ClientReadFailed <==> client.None?
    ensures client.None? ==> r.0 == pool
    ensures r.1 == NoBackend <==> client.Some? && !HasBackendsAvailable(pool.backends)
    ensures r.1 == NoBackend ==> r.0 == pool
    ensures client.Some? ==> r.0.balancer == NextBackend(pool, env, fuel).0.balancer
    ensures Len(r.0) == Len(pool)
    ensures !Chosen(r.1) ==> r.0.backends == pool.backends
    ensures Chosen(r.1) ==>
      && client.Some?
      && NextBackend(pool, env, fuel).1 == Finished(Ok(r.1.index))
      && r.1.index < Len(pool) && At(pool, r.1.index).alive
      && r.0.backends == pool.backends[r.1.index := At(r.0, r.1.index)]
      && At(r.0, r.1.index).alive
      && (r.1.RequestRejected? <==> !RequestDefined(Padded(client.value)))
    ensures r.1.RequestRejected? ==> r.0.backends == pool.backends
    ensures r.1.Served? ==>
      up.Replied? && r.1.reply == up.reply && ByteTraffic(At(r.0, r.1.index)) == up.received
  {
    match client
    case None => (pool, ClientReadFailed)
    case Some(received) => Serve(pool, received, env, fuel, up)
  }

  /** A session whose request was read: select a backend, then let it handle the request. */
  function Serve(pool: BackendPool, received: string, env: Env, fuel: nat, up: Upstream): (r: (BackendPool, Session))
    requires |received| <= BufSize
    ensures r.1 != ClientReadFailed
    ensures r.1 == NoBackend <==> !HasBackendsAvailable(pool.backends)
    ensures r.1 == NoBackend ==> r.0 == pool
    ensures r.0.balancer == NextBackend(pool, env, fuel).0.balancer
    ensures Len(r.0) == Len(pool)
    ensures !Chosen(r.1) ==> r.0.backends == pool.backends
    ensures Chosen(r.1) ==>
      && NextBackend(pool, env, fuel).1 == Finished(Ok(r.1.index))
      && r.1.index < Len(pool) && At(pool, r.1.index).alive
      && r.0.backends == pool.backends[r.1.index := At(r.0, r.1.index)]
      && At(r.0, r.1.index).alive
      && (r.1.RequestRejected? <==> !RequestDefined(Padded(received)))
    ensures r.1.RequestRejected? ==> r.0.backends == pool.backends
    ensures r.1.Served? ==>
      up.Replied? && r.1.reply == up.reply && ByteTraffic(At(r.0, r.1.index)) == up.received
  {
    var selection := NextBackend(pool, env, fuel);
    assert selection.0.backends == pool.backends;
    AfterSelection(selection.0, selection.1, Padded(received), up)
  }

  /** What follows selection: nothing to do unless a slot was named, which then handles
      the request. */
  function AfterSelection(selected: BackendPool, run: Run, buffer: string, up: Upstream): (r: (BackendPool, Session))
    requires run.Finished? && run.result.Ok? ==>
      run.result.value < Len(selected) && At(selected, run.result.value).alive
    ensures r.1 == NoBackend <==> run == Finished(Err(NoBackendAlive))
    ensures r.1 == SelectionUnfinished <==> run.OutOfFuel?
    ensures r.1 != ClientReadFailed
    ensures !Chosen(r.1) ==> r.0 == selected
    ensures r.0.balancer == selected.balancer
    ensures Len(r.0) == Len(selected)
    ensures Chosen(r.1) ==>
      && run == Finished(Ok(r.1.index)) && r.1.index < Len(selected)
      && r.0.backends == selected.backends[r.1.index := At(r.0, r.1.index)]
      && At(r.0, r.1.index).alive
      && (r.1.RequestRejected? <==> !RequestDefined(buffer))
    ensures r.1.RequestRejected? ==> r.0 == selected
    ensures r.1.Served? ==>
      up.Replied? && r.1.reply == up.reply && ByteTraffic(At(r.0, r.1.index)) == up.received
  {
    match run
    case OutOfFuel => (selected, SelectionUnfinished)
    case Finished(Err(NoBackendAlive)) => (selected, NoBackend)
    case Finished(Ok(i)) => Dispatch(selected, i, buffer, up)
  }

  /** The chosen backend handles the request; only its slot of the pool changes, and not
      even that one when the request is rejected. */
  function Dispatch(pool: BackendPool, i: nat, buffer: string, up: Upstream): (r: (BackendPool, Session))
    requires i < Len(pool)
    ensures Len(r.0) == Len(pool) && r.0.balancer == pool.balancer
    ensures Chosen(r.1) && r.1.index == i
    ensures r.1.RequestRejected? <==> !RequestDefined(buffer)
    ensures r.1.RequestRejected? ==> r.0 == pool
    ensures r.0.backends == pool.backends[i := At(r.0, i)]
    ensures At(r.0, i).alive == At(pool, i).alive
    ensures r.1.Served? ==>
      up.Replied? && r.1.reply == up.reply && ByteTraffic(At(r.0, i)) == up.received
  {
    var (b, exchange) := HandleRequest(buffer, At(pool, i), up);
    match exchange
    case Rejected => (pool, RequestRejected(i))
    case Exchanged(_, Some(text)) => (SetAt(pool, i, b), Served(i, text))
    case Exchanged(_, None) => (SetAt(pool, i, b), UpstreamFailed(i))
  }

  /** A pool that differs from another at most in slot `i`, and not in its liveness, has
      every slot's liveness and every other slot unchanged. */
  lemma OnlySlotChanged(before: BackendPool, after: BackendPool, i: nat)
    requires i < Len(before) && Len(after) == Len(before)
    requires after.backends == before.backends[i := At(after, i)]
    requires At(after, i).alive == At(before, i).alive
    ensures forall j :: 0 <= j < Len(before) ==> At(after, j).alive == At(before, j).alive
    ensures forall j :: 0 <= j < Len(before) && j != i ==> At(after, j) == At(before, j)
  {
  }

  /** A session changes no backend's liveness, and no slot but the chosen one. */
  lemma SessionKeepsLiveness(pool: BackendPool, client: Option<string>, env: Env, fuel: nat, up: Upstream)
    requires client.Some? ==> |client.value| <= BufSize
    ensures var r := HandleConnection(pool, client, env, fuel, up);
      && Len(r.0) == Len(pool)
      && (forall j :: 0 <= j < Len(pool) ==> At(r.0, j).alive == At(pool, j).alive)
      && (forall j :: 0 <= j < Len(pool) && !(Chosen(r.1) && j == r.1.index) ==> At(r.0, j) == At(pool, j))
  {
    var r := HandleConnection(pool, client, env, fuel, up);
    if Chosen(r.1) {
      OnlySlotChanged(pool, r.0, r.1.index);
    }
  }

  /** With round-robin and a live backend, `len` selection steps always choose a slot; the
      chosen backend is contacted exactly when the padded request parses with a `Host`. */
  lemma RoundRobinSessionReachesBackend(pool: BackendPool, received: string, env: Env, fuel: nat, up: Upstream)
    requires pool.balancer.RoundRobinBalancer?
    requires HasBackendsAvailable(pool.backends) && fuel >= Len(pool)
    requires |received| <= BufSize
    ensures var s := HandleConnection(pool, Some(received), env, fuel, up).1;
      Chosen(s) && (s.Served? || s.UpstreamFailed? <==> RequestDefined(Padded(received)))
  {
    RoundRobinTerminates(pool, env, fuel);
  }

  // ---------------------------------------------------------------- accept back-off

  function Pow2(k: nat): (r: nat)
    ensures r >= 1
  {
    if k == 0 then 1 else 2 * Pow2(k - 1)
  }

  /** The waits, in seconds, after the first `k` failures. */
  function Backoffs(k: nat): (r: seq<nat>)
    ensures |r| == k
    ensures forall i :: 0 <= i < k ==> r[i] == Pow2(i)
  {
    if k == 0 then [] else Backoffs(k - 1) + [Pow2(k - 1)]
  }

  datatype AcceptOutcome = Accepted(attempt: nat, waits: seq<nat>) | Failed(waits: seq<nat>)

  /** `Server::accept`: `succeeds(k)` tells whether attempt `k` (from 0) accepts. The wait
      starts at one second and doubles after each failure; a failure once the wait would
      exceed 64 seconds, the eighth in a row, is returned as the error. */
  method Accept(succeeds: nat -> bool) returns (r: AcceptOutcome)
    ensures r.Failed? <==> forall k :: 0 <= k < 8 ==> !succeeds(k)
    ensures r.Accepted? ==>
      && r.attempt < 8 && succeeds(r.attempt)
      && (forall k :: 0 <= k < r.attempt ==> !succeeds(k))
      && r.waits == Backoffs(r.attempt)
    ensures r.Failed? ==> r.waits == Backoffs(7)
  {
    var backoff: nat := 1;
    var attempt: nat := 0;
    var waits: seq<nat> := [];
    while true
      invariant backoff == Pow2(attempt) && attempt <= 7
      invariant waits == Backoffs(attempt)
      invariant forall k :: 0 <= k < attempt ==> !succeeds(k)
      decreases 7 - attempt
    {
      if succeeds(attempt) {
        return Accepted(attempt, waits);
      }
      if backoff > MaxBackoff {
        assert attempt == 7 by { BackoffBound(attempt); }
        return Failed(waits);
      }
      BackoffBound(attempt);
      assert Pow2(attempt + 1) == backoff * 2;
      assert Backoffs(attempt + 1) == waits + [backoff];
      waits := waits + [backoff];
      backoff := backoff * 2;
      attempt := attempt + 1;
    }
  }

  lemma {:induction false} Pow2Add(a: nat, b: nat)
    ensures Pow2(a + b) == Pow2(a) * Pow2(b)
  {
    if a > 0 {
      Pow2Add(a - 1, b);
    }
  }

  /** The wait exceeds 64 seconds exactly from the eighth attempt on. */
  lemma BackoffBound(k: nat)
    ensures Pow2(k) > MaxBackoff <==> k >= 7
  {
    assert Pow2(6) == 64 by {
      assert Pow2(1) == 2 && Pow2(2) == 4 && Pow2(3) == 8 && Pow2(4) == 16 && Pow2(5) == 32;
    }
    if k <= 6 {
      Pow2Add(k, 6 - k);
    } else {
      Pow2Add(7, k - 7);
    }
  }

  /** The waits before the error are 1, 2, 4, 8, 16, 32 and 64 seconds, 127 in all. */
  lemma FailedWaits()
    ensures Backoffs(7) == [1, 2, 4, 8, 16, 32, 64]
  {
    assert Pow2(1) == 2 && Pow2(2) == 4 && Pow2(3) == 8;
    assert Pow2(4) == 16 && Pow2(5) == 32 && Pow2(6) == 64;
  }
}

=== FILE: text.dfy ===
/**
 The string operations of the Rust standard library that the HTTP codec relies on:
 `starts_with`, `split(pattern)`, `split_whitespace`, `splitn(2, ':')` and
 `trim_end_matches('\0')`. Text is a sequence of Unicode scalar values.
 */
module Text {
  import opened Wrappers

  /** `pat` occurs in `s` starting at position `i`. */
  predicate OccursAt(s: string, pat: string, i: nat) {
    i + |pat| <= |s| && s[i..i + |pat|] == pat
  }

  /** `str::starts_with`. */
  predicate StartsWith(s: string, prefix: string) {
    |prefix| <= |s| && s[..|prefix|] == prefix
  }

  /** The first occurrence of `pat` in `s` at or after `from`. */
  function FindFrom(s: string, pat: string, from: nat): (r: Option<nat>)
    requires |pat| > 0
    ensures r.Some? ==> from <= r.value && OccursAt(s, pat, r.value)
    ensures r.Some? ==> forall j :: from <= j < r.value ==> !OccursAt(s, pat, j)
    ensures r.None? ==> forall j :: from <= j ==> !OccursAt(s, pat, j)
    decreases |s| - from
  {
    if from + |pat| > |s| then None
    else if OccursAt(s, pat, from) then Some(from)
    else FindFrom(s, pat, from + 1)
  }

  function Find(s: string, pat: string): (r: Option<nat>)
    requires |pat| > 0
    ensures r.Some? ==> OccursAt(s, pat, r.value) && forall j :: 0 <= j < r.value ==> !OccursAt(s, pat, j)
    ensures r.None? ==> forall j :: !OccursAt(s, pat, j)
  {
    FindFrom(s, pat, 0)
  }

  /** The first occurrence is unique: an occurrence with none before it is the one `Find` returns. */
  lemma FindIs(s: string, pat: string, k: nat)
    requires |pat| > 0
    requires OccursAt(s, pat, k)
    requires forall j :: 0 <= j < k ==> !OccursAt(s, pat, j)
    ensures Find(s, pat) == Some(k)
  {
  }

  /** Pieces glued back together with `sep` between consecutive ones. */
  function Join(ps: seq<string>, sep: string): string
    requires |ps| >= 1
  {
    if |ps| == 1 then ps[0] else ps[0] + sep + Join(ps[1..], sep)
  }

  /** `str::split(pat)`: the pieces between occurrences, scanning left to right. */
  function Split(s: string, pat: string): (r: seq<string>)
    requires |pat| > 0
    ensures |r| >= 1
    ensures Join(r, pat) == s
    ensures forall j :: !OccursAt(r[0], pat, j)
    ensures forall j :: 0 <= j < |r[0]| ==> !OccursAt(s, pat, j)
    ensures |r| == 1 <==> forall j :: !OccursAt(s, pat, j)
    decreases |s|
  {
    match Find(s, pat)
    case None => [s]
    case Some(i) =>
      FirstPiece(s, pat, i);
      [s[..i]] + Split(s[i + |pat|..], pat)
  }

  /** After the first piece and the first occurrence, the remaining pieces are the split
      of the rest: splitting goes on from the leftmost occurrence, piece by piece. */
  lemma SplitRest(s: string, pat: string)
    requires |pat| > 0 && |Split(s, pat)| >= 2
    ensures |Split(s, pat)[0]| + |pat| <= |s|
    ensures Split(s, pat)[1..] == Split(s[|Split(s, pat)[0]| + |pat|..], pat)
  {
    var i := Find(s, pat).value;
    assert Split(s, pat) == [s[..i]] + Split(s[i + |pat|..], pat);
  }

  /** No piece of a split holds the pattern: every cut is at the leftmost occurrence
      left in the text. */
  lemma {:induction false} SplitPieces(s: string, pat: string)
    requires |pat| > 0
    ensures forall i, j :: 0 <= i < |Split(s, pat)| ==> !OccursAt(Split(s, pat)[i], pat, j)
    decreases |s|
  {
    var r := Split(s, pat);
    if |r| >= 2 {
      var rest := s[|r[0]| + |pat|..];
      SplitRest(s, pat);
      SplitPieces(rest, pat);
      forall i, j | 0 <= i < |r| ensures !OccursAt(r[i], pat, j) {
        if i > 0 {
          assert r[i] == Split(rest, pat)[i - 1];
        }
      }
    }
  }

  /** The text before a first occurrence holds none, and the occurrence sits between it
      and the rest. */
  lemma FirstPiece(s: string, pat: string, i: nat)
    requires |pat| > 0 && Find(s, pat) == Some(i)
    ensures s == s[..i] + pat + s[i + |pat|..]
    ensures forall j :: !OccursAt(s[..i], pat, j)
  {
    forall j: nat | OccursAt(s[..i], pat, j)
      ensures OccursAt(s, pat, j)
    {
      OccursInPrefix(s[..i], s, pat, j);
    }
  }

  /** Joined text starts with its first piece. */
  lemma JoinStarts(ps: seq<string>, sep: string)
    requires |ps| >= 1
    ensures ps[0] <= Join(ps, sep)
  {
    if |ps| > 1 {
      assert Join(ps, sep) == ps[0] + (sep + Join(ps[1..], sep));
    }
  }

  /** A pattern occurring in a prefix occurs in the whole text at the same place. */
  lemma OccursInPrefix(a: string, b: string, pat: string, j: nat)
    requires a <= b && OccursAt(a, pat, j)
    ensures OccursAt(b, pat, j)
  {
    assert a[j..j + |pat|] == b[j..j + |pat|];
  }

  /** The first piece of a split is a prefix of the text; the whole text when it is the
      only piece, else followed by the pattern. */
  lemma SplitFirst(s: string, pat: string)
    requires |pat| > 0
    ensures Split(s, pat)[0] <= s
    ensures |Split(s, pat)| == 1 ==> Split(s, pat)[0] == s
    ensures |Split(s, pat)| >= 2 ==> OccursAt(s, pat, |Split(s, pat)[0]|)
  {
    if Find(s, pat).Some? {
      var i := Find(s, pat).value;
      assert Split(s, pat)[0] == s[..i];
    }
  }

  /** The second piece of a split starts right after the first occurrence, holds no
      occurrence of the pattern, and ends at the end of the text or at the next occurrence,
      the leftmost one after the first. */
  lemma SplitSecond(s: string, pat: string)
    requires |pat| > 0 && |Split(s, pat)| >= 2
    ensures |Split(s, pat)[0]| + |pat| <= |s|
    ensures var rest := s[|Split(s, pat)[0]| + |pat|..];
      && Split(s, pat)[1] <= rest
      && (|Split(s, pat)[1]| == |rest| || OccursAt(rest, pat, |Split(s, pat)[1]|))
      && (forall j :: 0 <= j < |Split(s, pat)[1]| ==> !OccursAt(rest, pat, j))
    ensures forall j :: !OccursAt(Split(s, pat)[1], pat, j)
  {
    var i := Find(s, pat).value;
    var rest := s[i + |pat|..];
    assert Split(s, pat) == [s[..i]] + Split(rest, pat);
    SplitFirst(rest, pat);
  }

  /** The first two pieces of a split: the first ends at the first occurrence, which it
      does not contain; the second follows that occurrence up to the end or the leftmost
      next one. */
  lemma SplitParts(s: string, pat: string)
    requires |pat| > 0 && |Split(s, pat)| >= 2
    ensures var first := Split(s, pat)[0];
      && StartsWith(s, first + pat)
      && (forall j :: 0 <= j < |first| ==> !OccursAt(s, pat, j))
    ensures var after := s[|Split(s, pat)[0]| + |pat|..];
      var second := Split(s, pat)[1];
      && second <= after
      && (forall j :: !OccursAt(second, pat, j))
      && (forall j :: 0 <= j < |second| ==> !OccursAt(after, pat, j))
      && (|second| == |after| || OccursAt(after, pat, |second|))
  {
    var first := Split(s, pat)[0];
    SplitFirst(s, pat);
    SplitSecond(s, pat);
    assert s[..|first| + |pat|] == first + pat;
  }

  /** The second piece of a split with its trailing NULs trimmed: after the first
      occurrence, free of the pattern, not ending in NUL, and stopping at the end of the
      text, at a NUL or at the next occurrence. Exactly: the second piece runs to the end
      or to the leftmost next occurrence, and only NULs follow the trimmed text in it. */
  lemma SplitTrimmed(s: string, pat: string)
    requires |pat| > 0 && |Split(s, pat)| >= 2
    ensures |Split(s, pat)[0]| + |pat| <= |s|
    ensures var after := s[|Split(s, pat)[0]| + |pat|..];
      var b := TrimEndNuls(Split(s, pat)[1]);
      && b <= after
      && (forall j :: !OccursAt(b, pat, j))
      && (|b| == 0 || b[|b| - 1] != '\0')
      && (|b| == |after| || after[|b|] == '\0' || OccursAt(after, pat, |b|))
    ensures var after := s[|Split(s, pat)[0]| + |pat|..];
      var second := Split(s, pat)[1];
      var b := TrimEndNuls(second);
      && second <= after
      && (forall j :: 0 <= j < |second| ==> !OccursAt(after, pat, j))
      && (|second| == |after| || OccursAt(after, pat, |second|))
      && b <= second
      && (forall k :: |b| <= k < |second| ==> second[k] == '\0')
  {
    var pieces := Split(s, pat);
    SplitSecond(s, pat);
    var after := s[|pieces[0]| + |pat|..];
    var b := TrimEndNuls(pieces[1]);
    TrimmedPiece(pieces[1], after, pat);
    assert b <= after;
    assert forall j :: !OccursAt(b, pat, j);
    assert |b| == 0 || b[|b| - 1] != '\0';
    assert |b| == |after| || after[|b|] == '\0' || OccursAt(after, pat, |b|);
  }

  /** Trimming the NULs off a piece that ends at the end of `after` or at an occurrence
      gives text that ends at the end, at a NUL or at that occurrence. */
  lemma TrimmedPiece(piece: string, after: string, pat: string)
    requires piece <= after && forall j :: !OccursAt(piece, pat, j)
    requires |piece| == |after| || OccursAt(after, pat, |piece|)
    ensures var b := TrimEndNuls(piece);
      && b <= after
      && (forall j :: !OccursAt(b, pat, j))
      && (|b| == 0 || b[|b| - 1] != '\0')
      && (|b| == |after| || after[|b|] == '\0' || OccursAt(after, pat, |b|))
  {
    var b := TrimEndNuls(piece);
    forall j: nat | OccursAt(b, pat, j)
      ensures OccursAt(piece, pat, j)
    {
      OccursInPrefix(b, piece, pat, j);
    }
    if |b| < |piece| {
      assert after[|b|] == piece[|b|];
    }
  }

  /** Splitting at a first occurrence: the piece before it, then the split of the rest. */
  lemma SplitAt(a: string, pat: string, b: string)
    requires |pat| > 0
    requires forall j :: 0 <= j < |a| ==> !OccursAt(a + pat + b, pat, j)
    ensures Split(a + pat + b, pat) == [a] + Split(b, pat)
  {
    var s := a + pat + b;
    assert s[|a|..|a| + |pat|] == pat;
    FindIs(s, pat, |a|);
    assert s[..|a|] == a;
    assert s[|a| + |pat|..] == b;
  }

  /** Text without any occurrence of the pattern splits into itself alone. */
  lemma SplitNone(s: string, pat: string)
    requires |pat| > 0
    requires forall j :: !OccursAt(s, pat, j)
    ensures Split(s, pat) == [s]
  {
  }

  /** Rust's `char::is_whitespace`: the characters with the Unicode White_Space property. */
  const Whitespace: set<char> :=
    {'\t', '\n', '\U{000B}', '\U{000C}', '\r', ' ', '\U{0085}', '\U{00A0}', '\U{1680}',
     '\U{2000}', '\U{2001}', '\U{2002}', '\U{2003}', '\U{2004}', '\U{2005}', '\U{2006}',
     '\U{2007}', '\U{2008}', '\U{2009}', '\U{200A}', '\U{2028}', '\U{2029}', '\U{202F}',
     '\U{205F}', '\U{3000}'}

  predicate IsWhitespace(c: char) {
    c in Whitespace
  }

  predicate NoWhitespace(s: string) {
    forall i :: 0 <= i < |s| ==> !IsWhitespace(s[i])
  }

  /** Visible ASCII text, from '!' to '~', holds no whitespace. */
  lemma VisibleNoWhitespace(s: string)
    requires forall i :: 0 <= i < |s| ==> '!' <= s[i] <= '~'
    ensures NoWhitespace(s)
  {
  }

  /** Length of the run of non-whitespace characters that starts `s`. */
  function WordLength(s: string): (n: nat)
    ensures n <= |s|
    ensures NoWhitespace(s[..n])
    ensures n < |s| ==> IsWhitespace(s[n])
  {
    if |s| == 0 || IsWhitespace(s[0]) then 0
    else
      var n := 1 + WordLength(s[1..]);
      assert s[..n] == [s[0]] + s[1..][..n - 1];
      n
  }

  /** `str::split_whitespace`: the maximal non-empty runs of non-whitespace. */
  function Words(s: string): (r: seq<string>)
    ensures forall i :: 0 <= i < |r| ==> |r[i]| > 0 && NoWhitespace(r[i])
    ensures NoWhitespace(s) ==> r == if |s| == 0 then [] else [s]
    decreases |s|
  {
    if |s| == 0 then []
    else if IsWhitespace(s[0]) then Words(s[1..])
    else
      var n := WordLength(s);
      var rest := Words(s[n..]);
      assert NoWhitespace(s) ==> n == |s| && rest == [] && s[..n] == s;
      [s[..n]] + rest
  }

  /** A run of non-whitespace stops where the next text starts with whitespace. */
  lemma {:induction false} WordLengthAppend(a: string, b: string)
    requires |b| == 0 || IsWhitespace(b[0])
    ensures WordLength(a + b) == WordLength(a)
    decreases |a|
  {
    if |a| == 0 {
      assert a + b == b;
    } else if IsWhitespace(a[0]) {
    } else {
      assert (a + b)[1..] == a[1..] + b;
      WordLengthAppend(a[1..], b);
    }
  }

  /** Words do not merge across a boundary where the second half starts with whitespace. */
  lemma {:induction false} WordsAppend(a: string, b: string)
    requires |b| == 0 || IsWhitespace(b[0])
    ensures Words(a + b) == Words(a) + Words(b)
    decreases |a|
  {
    if |a| == 0 {
      assert a + b == b;
    } else if IsWhitespace(a[0]) {
      assert (a + b)[1..] == a[1..] + b;
      WordsAppend(a[1..], b);
    } else {
      var s := a + b;
      var n := WordLength(a);
      WordLengthAppend(a, b);
      assert s[0] == a[0];
      assert s[..n] == a[..n];
      assert s[n..] == a[n..] + b;
      WordsAppend(a[n..], b);
      var w, rest, tail := [a[..n]], Words(a[n..]), Words(b);
      assert Words(s) == w + (rest + tail);
      assert w + (rest + tail) == w + rest + tail;
    }
  }

  /** Leading whitespace contributes no word. */
  lemma WordsSpace(x: string)
    ensures Words(" " + x) == Words(x)
  {
    assert (" " + x)[1..] == x;
  }

  /** Any whitespace character separates words: the words of the two sides, in order. */
  lemma WordsBreak(a: string, c: char, b: string)
    requires IsWhitespace(c)
    ensures Words(a + [c] + b) == Words(a) + Words(b)
  {
    WordsAppend(a, [c] + b);
    assert ([c] + b)[1..] == b;
    assert a + [c] + b == a + ([c] + b);
  }

  /** Concatenation regroups; kept apart so that the regrouping is proved without the
      word functions in sight. */
  lemma Regroup(a: string, b: string, c: string)
    ensures a + b + c == a + (b + c)
  {
  }

  /** The same regrouping for five pieces, as two words and a tail need it. */
  lemma Regroup5(a: string, b: string, c: string, d: string, e: string)
    ensures a + b + c + d + e == a + b + (c + d + e)
  {
  }

  /** A word, a space and more text, grouped to the right. */
  lemma WordSpaced(w: string, x: string)
    requires |w| > 0 && NoWhitespace(w)
    ensures Words(w + (" " + x)) == [w] + Words(x)
  {
    var rest := " " + x;
    assert rest[0] == ' ';
    WordsAppend(w, rest);
    assert Words(w) == [w];
    WordsSpace(x);
  }

  /** A word followed by a space and more text. */
  lemma WordThen(w: string, x: string)
    requires |w| > 0 && NoWhitespace(w)
    ensures Words(w + " " + x) == [w] + Words(x)
  {
    Regroup(w, " ", x);
    WordSpaced(w, x);
  }

  /** Two words, each followed by a space, then more text. */
  lemma TwoWordsThen(w0: string, w1: string, x: string)
    requires |w0| > 0 && NoWhitespace(w0)
    requires |w1| > 0 && NoWhitespace(w1)
    ensures Words(w0 + " " + w1 + " " + x) == [w0, w1] + Words(x)
  {
    var tail := w1 + " " + x;
    Regroup5(w0, " ", w1, " ", x);
    WordThen(w1, x);
    WordThen(w0, tail);
    assert [w0] + ([w1] + Words(x)) == [w0, w1] + Words(x);
  }

  /** Three words separated by single spaces. */
  lemma ThreeWords(w0: string, w1: string, w2: string)
    requires |w0| > 0 && NoWhitespace(w0)
    requires |w1| > 0 && NoWhitespace(w1)
    requires |w2| > 0 && NoWhitespace(w2)
    ensures Words(w0 + " " + w1 + " " + w2) == [w0, w1, w2]
  {
    var tail := w1 + " " + w2;
    Regroup5(w0, " ", w1, " ", w2);
    assert Words(w2) == [w2];
    WordThen(w1, w2);
    WordThen(w0, tail);
  }

  /** The position of the first `d` in `s`. */
  function IndexOf(s: string, d: char): (i: nat)
    requires d in s
    ensures i < |s| && s[i] == d && d !in s[..i]
  {
    if s[0] == d then 0
    else
      var i := 1 + IndexOf(s[1..], d);
      assert s[..i] == [s[0]] + s[1..][..i - 1];
      i
  }

  /** `str::splitn(2, d)` on text that contains `d`: the text before the first `d` and the
      untouched remainder after it. */
  function SplitOnce(s: string, d: char): (r: (string, string))
    requires d in s
    ensures r.0 + [d] + r.1 == s
    ensures d !in r.0
  {
    var i := IndexOf(s, d);
    assert s == s[..i] + [d] + s[i + 1..];
    (s[..i], s[i + 1..])
  }

  /** `str::trim_end_matches('\0')`. */
  function TrimEndNuls(s: string): (r: string)
    ensures r <= s
    ensures forall i :: |r| <= i < |s| ==> s[i] == '\0'
    ensures |r| == 0 || r[|r| - 1] != '\0'
  {
    if |s| > 0 && s[|s| - 1] == '\0' then TrimEndNuls(s[..|s| - 1]) else s
  }

  /** Text made only of NULs trims to nothing. */
  lemma {:induction false} TrimAllNuls(s: string)
    requires forall i :: 0 <= i < |s| ==> s[i] == '\0'
    ensures TrimEndNuls(s) == ""
  {
    if |s| > 0 {
      TrimAllNuls(s[..|s| - 1]);
    }
  }
}

=== FILE: wrappers.dfy ===
/** Option and Result, the two failure-carrying shapes the modelled code uses. */
module Wrappers {

  datatype Option<+T> = None | Some(value: T)

  datatype Result<+T, +E> = Ok(value: T) | Err(error: E)
}
